=== FILE: README.md ===
# aircleaning scene, markup and header parsing — a Dafny model

This project models the pure core of the `aircleaning` reporting package:

- **The scene geometry** of `aircleaning/svg.py`. A `Flat` is an axis-aligned
  rectangle in 3-D, tagged `xy`, `xz` or `yz`. A `Box` makes six flats from six
  bounds. `Hollow` and `Solid` show three of them, and `Room` and `Person` colour
  those three. A `Canvas` collects flats through `add`. The camera is a
  `Transform` (pan and tilt about a focus point, with a lazily cached
  rotation), a `Projection` (scale, centre, flip) and a `View` that applies one
  after the other. `draw_scene` assembles a room with a door and windows.
- **Column-header parsing**, `process_colname` of `aircleaning/load.py`. It
  turns `"Unit Cost (AUD)"` into the name `unitcost` and the unit `AUD`.
- **Indented markup emission** of `aircleaning/html.py`. `Normal.yield_lines`
  wraps an element's lines between its tags, `Page._yield_lines_` emits the
  document skeleton, and `_repr_html_` joins lines into text.

Modules follow the program's structure:

| file | module | models |
|---|---|---|
| wrappers.dfy | `Wrappers` | `None`/value, success/exception, the exceptions raised |
| strings.dfy | `Strings` | `str.split(sep)` and `sep.join`, with their round trips |
| load.dfy | `Load` | `process_colname`, `str.lower`, `str.strip('()')` |
| html.dfy | `Html` | `Element`, `Normal`, `Page` |
| vectors.dfy | `Vectors` | the rows of the `(n, 3)` and `(n, 2)` arrays |
| camera.dfy | `Camera` | `Transform`, `Projection`, `View` |
| flats.dfy | `Flats` | `Flat` |
| compounds.dfy | `Compounds` | `Box`, `Hollow`, `Solid`, `Person`, `Room` |
| scene.dfy | `Scene` | `Canvas`, `Flat.draw`, `draw_scene` |

Python floats are modelled as Dafny `real`, so the geometry is exact. Python's
`int()` on a float is `Camera.Trunc`, which truncates toward zero. Mutators
become pure functions that return the updated record. Their contracts say
what changes and that nothing else does. Exceptions become `Result` values.

The rotation itself (scipy's `Rotation.from_euler('zx', (-pan, -tilt))` and its
`apply`) is not modelled. A `Camera.Rotation` records the two Euler angles it
is built from. Applying it to a point is a function `rotate` that callers pass
in. So every statement about drawn points holds for any rotation routine,
except `Camera.DefaultViewOrigin`, which assumes the routine leaves the origin
where it is, as every rotation does.

A few facts about the code that shape the model:

- `Person` is a `Solid`, so it shows three faces: front, side and roof
  (aircleaning/svg.py:515-524).
- Assigning `focus` writes into the focus array and keeps the cached rotation
  (aircleaning/svg.py:57-59). The rotation depends only on the angles, and the
  focus is read when the transform is applied (aircleaning/svg.py:70-71).
- `Canvas.add` appends graphics in call order, and `Canvas._yield_lines_`
  draws them in that order (aircleaning/svg.py:152-159, 178-181).

## Model

| member | source | states |
|---|---|---|
| Strings.Split | aircleaning/load.py:13 | `split(' ')` gives one more part than there are separators, and no part contains the separator |
| Strings.Join | aircleaning/html.py:21 | `sep.join(parts)` is empty for no parts, starts with the first part, and puts the separator right after it when there are more; `JoinSplit` and `SplitJoin` pin it as the inverse of `split` |
| Strings.JoinSplit | aircleaning/load.py:13 | joining the parts of a split with the separator gives back the original text |
| Strings.SplitJoin | aircleaning/load.py:13 | splitting the join of separator-free parts gives back the parts |
| Load.Lower | aircleaning/load.py:15 | lower-casing sends each upper-case letter to its lower-case partner (32 code points on), leaves no upper-case letter, maps a space to a space and nothing else to a space, and fixes every other character |
| Load.LowerStr | aircleaning/load.py:15 | a lower-cased string keeps its length and is lowered character by character |
| Load.LowerJoin | aircleaning/load.py:18 | gluing lower-cased tokens with `''` adds no space when the tokens have none |
| Load.LowerJoinSplit | aircleaning/load.py:21 | lower-casing the split tokens and gluing them is lower-casing the header with its spaces removed |
| Load.StripLeading | aircleaning/load.py:19 | the result is a suffix, everything removed is a parenthesis, and the result does not start with one |
| Load.StripTrailing | aircleaning/load.py:19 | the result is a prefix, everything removed is a parenthesis, and the result does not end with one |
| Load.StripParens | aircleaning/load.py:19 | `strip('()')` leaves text that neither starts nor ends with `(` or `)` |
| Load.StripParensWrapped | aircleaning/load.py:19 | `strip('()')` removes exactly the parentheses around a core that has none at its ends |
| Load.ProcessColname | aircleaning/load.py:12-21 | the name never has a space; a header without a space gives its lower-cased self and no unit; a unit has no parenthesis at either end; without a unit the name is the header lower-cased with its spaces removed |
| Load.ProcessColnameUnit | aircleaning/load.py:14-21 | a unit comes back exactly when the text after the last space starts with `(`; the name is then the lower-cased text before that space without spaces, and the unit is the stripped last token |
| Load.ProcessColnameOfTokens | aircleaning/load.py:16-20 | when the last split token starts with `(`, the name is the lower-cased earlier tokens glued together and the unit is the stripped last token |
| Load.ProcessColnameRoundTrip | aircleaning/load.py:16-20 | a header rendered as `words (unit)` parses back to the lower-cased words glued together and the unit |
| Html.Indent | aircleaning/html.py:42 | the indentation is two spaces per level and empty for a level of zero or less |
| Html.OpenTag | aircleaning/html.py:33-35 | `open_tag` is the type name between `<` and `>`, and the name can be read back from it |
| Html.CloseTag | aircleaning/html.py:37-39 | `close_tag` is the type name between `</` and `>`, and the name can be read back from it |
| Html.YieldLines | aircleaning/html.py:41-46 | `yield_lines(indent)` has two more lines than the body; the first is the indentation plus `<name>`, the last the indentation plus `</name>`, and body line k follows as line k+1 with the indentation in front |
| Html.YieldLinesIndented | aircleaning/html.py:41-46 | every emitted line starts with the indentation |
| Html.BareLines | aircleaning/html.py:13-14 | an element with the default `_yield_lines_`, which yields nothing, emits exactly its open and close tags |
| Html.YieldLinesShift | aircleaning/html.py:41-46 | emitting one level deeper puts two more spaces in front of every line |
| Html.ParseYieldLines | aircleaning/html.py:41-46 | the lines an element emits parse back to that element, with its name and body |
| Html.YieldLinesParse | aircleaning/html.py:41-46 | lines that parse as an element are exactly the lines that element emits |
| Html.Blocks | aircleaning/html.py:65-66 | the contents take two lines plus their body lines each |
| Html.BlocksIndented | aircleaning/html.py:65-66 | every content line is emitted at least one level deep |
| Html.BlocksAt | aircleaning/html.py:65-66 | content j is emitted whole at indent 1, after the contents before it and before those after it |
| Html.Header | aircleaning/html.py:58-64 | the seven skeleton lines open with the doctype, close with `<body>`, and carry the title between `  <title>` and `</title>` |
| Html.PageLines | aircleaning/html.py:57-68 | the page is the seven skeleton lines, then the contents, then `</body>` and `</html>`; the content lines are all indented |
| Html.PageContents | aircleaning/html.py:57-68 | each content's `yield_lines(1)` sits between the skeleton, the contents before it and the contents after it, in tuple order |
| Html.BareBlocksSize | aircleaning/html.py:65-66 | contents that all keep the default hook take exactly two lines each |
| Html.ReprHtml | aircleaning/html.py:20-21 | `_repr_html_` text ends with a newline and starts with the first line |
| Html.NormalReprHtml | aircleaning/html.py:20-21 | a `Normal` element's `_repr_html_` is emitted at indent 0: it starts with the open tag and ends with a newline |
| Html.YieldLinesZero | aircleaning/html.py:41-46 | at indent 0 the lines are the open tag, the body lines unchanged and the close tag |
| Html.NormalReprHtmlLines | aircleaning/html.py:20-21 | when no name or body line holds a newline, splitting a `Normal` element's `_repr_html_` at newlines gives the open tag, the body, the close tag and an empty tail |
| Html.ReprHtmlLines | aircleaning/html.py:20-21 | splitting `_repr_html_` text at newlines gives the lines plus one empty tail, so the text holds one newline per line |
| Camera.DefaultTransform | aircleaning/svg.py:19-21 | `Transform()` has pan 0, tilt 0, focus at the origin and no cached rotation |
| Camera.NewTransform | aircleaning/svg.py:19-21 | a new transform keeps its angles and focus and has no rotation cached |
| Camera.SetPan | aircleaning/svg.py:27-33 | assigning `panval` sets it, discards the cached rotation and keeps tilt and focus |
| Camera.SetTilt | aircleaning/svg.py:39-45 | assigning `tiltval` sets it, discards the cached rotation and keeps pan and focus |
| Camera.Pan | aircleaning/svg.py:47-48 | `pan(d)` adds d to the pan angle and discards the cached rotation |
| Camera.Tilt | aircleaning/svg.py:50-51 | `tilt(d)` adds d to the tilt angle and discards the cached rotation |
| Camera.PanPan | aircleaning/svg.py:47-48 | `pan(a); pan(b)` is `pan(a + b)` |
| Camera.TiltTilt | aircleaning/svg.py:50-51 | `tilt(a); tilt(b)` is `tilt(a + b)` |
| Camera.PanTiltCommute | aircleaning/svg.py:47-51 | panning and tilting commute |
| Camera.SetFocus | aircleaning/svg.py:57-59 | assigning the focus keeps the angles and the cache, and a valid cache stays valid |
| Camera.ReadRotation | aircleaning/svg.py:61-68 | reading the rotation fills the cache with what it returns, and with a valid cache that is the rotation of the current angles |
| Camera.ReadRotationTwice | aircleaning/svg.py:61-68 | a second read hits the cache and returns the same rotation without further change |
| Camera.TransformPoints | aircleaning/svg.py:70-71 | applying the transform gives one point per input: the input minus the focus, rotated by the current angles' rotation |
| Camera.CacheTransparent | aircleaning/svg.py:61-71 | while the cache is valid, whether a rotation is cached does not change the transformed points |
| Camera.Trunc | aircleaning/svg.py:85-87 | `int()` truncates toward zero: within one below a non-negative value, within one above a negative one |
| Camera.DefaultProjection | aircleaning/svg.py:78-79 | `Projection()` is 424 by 300 at scale 1 |
| Camera.NewProjection | aircleaning/svg.py:78-79 | width and height are stored truncated, the scale as given |
| Camera.SetWidth | aircleaning/svg.py:85-87 | assigning the width stores it truncated and changes nothing else |
| Camera.SetHeight | aircleaning/svg.py:93-95 | assigning the height stores it truncated and changes nothing else |
| Camera.Scale | aircleaning/svg.py:105-106 | `scale(k)` multiplies the scale factor and keeps the viewport |
| Camera.ScaleScale | aircleaning/svg.py:105-106 | scaling twice is scaling once by the product |
| Camera.ProjectPoint | aircleaning/svg.py:108-112 | one row of `Projection.__call__`: scale, shift x by half the width, flip y below half the height, drop z; `UnprojectProject` and `ProjectUnproject` invert it |
| Camera.Project | aircleaning/svg.py:108-112 | projecting gives one 2-D point per input, in order |
| Camera.UnprojectProject | aircleaning/svg.py:108-112 | with a non-zero scale a projected point determines x and y: only depth is dropped |
| Camera.ProjectUnproject | aircleaning/svg.py:108-112 | with a non-zero scale every surface point is the projection of a scene point at any chosen depth |
| Camera.ProjectScaled | aircleaning/svg.py:105-112 | projecting after `scale(k)` is projecting the scene scaled by k about the origin |
| Camera.DefaultOrigin | aircleaning/svg.py:78-112 | the default 424 by 300 projection at scale 1 puts the origin at pixel (212, 150) |
| Camera.DefaultView | aircleaning/svg.py:147-148 | the view a canvas builds when given none: the default projection and the default transform |
| Camera.ViewPoints | aircleaning/svg.py:130-131 | a view applies the transform and then the projection, one point per input; the view afterwards differs only in having its rotation cached: the projection, pan, tilt and focus are kept |
| Camera.DefaultViewOrigin | aircleaning/svg.py:145-148 | through the default view the origin appears at (212, 150) |
| Flats.ParseOrientation | aircleaning/svg.py:219-224 | an orientation tag is accepted exactly when it is `xy`, `xz` or `yz`; anything else raises `ValueError` with the tag |
| Flats.ParseTag | aircleaning/svg.py:202-206 | each orientation's tag is accepted as that orientation |
| Flats.OMap | aircleaning/svg.py:202-206 | each orientation sends u, v and the offset to three distinct axes |
| Flats.NewFlat | aircleaning/svg.py:210-213 | construction fails with `ValueError` exactly on an unknown tag and otherwise keeps every argument |
| Flats.SetOrientation | aircleaning/svg.py:219-224 | assigning an orientation fails exactly on an unknown tag and otherwise changes nothing else |
| Flats.FixedAxis | aircleaning/svg.py:202-206 | the axis that holds the fixed offset is the third entry of `_omap` |
| Flats.UL | aircleaning/svg.py:274-276 | `ul` is the extent `u1 - u0`; `SetUL` and `UScale` are stated in its terms |
| Flats.VL | aircleaning/svg.py:285-287 | `vl` is the extent `v1 - v0`; `SetVL` and `VScale` are stated in its terms |
| Flats.UC | aircleaning/svg.py:306-308 | `uc` is the u-midpoint, and centre and extent together give back both u-ends |
| Flats.VC | aircleaning/svg.py:316-318 | `vc` is the v-midpoint, and centre and extent together give back both v-ends |
| Flats.SetUL | aircleaning/svg.py:278-283 | setting `ul` makes the u-extent the value and keeps the u-centre and everything else |
| Flats.SetVL | aircleaning/svg.py:289-294 | setting `vl` makes the v-extent the value and keeps the v-centre and everything else |
| Flats.SetUC | aircleaning/svg.py:310-314 | setting `uc` moves the u-centre to the value and keeps the u-extent and everything else |
| Flats.SetVC | aircleaning/svg.py:320-324 | setting `vc` moves the v-centre to the value and keeps the v-extent and everything else |
| Flats.UScale | aircleaning/svg.py:296-297 | `uscale(k)` multiplies the u-extent by k about the same centre |
| Flats.VScale | aircleaning/svg.py:299-300 | `vscale(k)` multiplies the v-extent by k about the same centre |
| Flats.Scale | aircleaning/svg.py:302-304 | `scale(k)` multiplies both extents by k and keeps both centres, the offset, orientation and fill |
| Flats.SetULSame | aircleaning/svg.py:278-283 | setting the extent to its current value changes nothing |
| Flats.SetULSetUC | aircleaning/svg.py:278-314 | setting the extent and setting the centre commute |
| Flats.ScaleScale | aircleaning/svg.py:296-304 | scaling twice is scaling once by the product |
| Flats.ScaleOne | aircleaning/svg.py:302-304 | scaling by one changes nothing |
| Flats.Corners | aircleaning/svg.py:326-332 | `__array__` gives four corners in the order (u0,v0), (u0,v1), (u1,v1), (u1,v0): xy puts u on x, v on y, offset on z; xz puts u on x, v on z, offset on y; yz puts u on y, v on z, offset on x |
| Flats.CornersFixedAxis | aircleaning/svg.py:326-332 | all corners carry the offset on the fixed axis; with both extents non-zero it is the only axis they agree on |
| Flats.ScaleKeepsPlane | aircleaning/svg.py:302-332 | scaling keeps every corner in the flat's plane |
| Compounds.MakeFlat | aircleaning/svg.py:414-426 | bottom and top are xy over (l, r, n, f), near and far xz over (l, r, b, t), left and right yz over (n, f, b, t), each at the bound of its own name, in black |
| Compounds.NewBox | aircleaning/svg.py:357-364 | a box keeps its six bounds and builds its six faces from them |
| Compounds.BoxFaces | aircleaning/svg.py:472-474 | a box's faces in the order (left, right, near, far, bottom, top) |
| Compounds.Breadth | aircleaning/svg.py:428-430 | `breadth` is right minus left; `NewBoxFacesFit` matches it to the bottom and near faces |
| Compounds.Depth | aircleaning/svg.py:432-434 | `depth` is far minus near; `NewBoxFacesFit` matches it to the bottom and left faces |
| Compounds.Height | aircleaning/svg.py:436-438 | `height` is top minus bottom; `NewBoxFacesFit` matches it to the near and left faces |
| Compounds.Centre | aircleaning/svg.py:440-446 | the centre is the midpoint of each pair of bounds |
| Compounds.NewBoxFacesFit | aircleaning/svg.py:428-446 | the faces span the box's breadth, depth and height and are centred on its centre |
| Compounds.Graphics | aircleaning/svg.py:472-512 | a box shows (left, right, near, far, bottom, top), a hollow (bottom, far, right), a solid (near, left, top) |
| Compounds.GraphicsAreFaces | aircleaning/svg.py:472-512 | every face a compound shows is one of its box's faces |
| Compounds.Room | aircleaning/svg.py:531-535 | a room is a hollow from the origin showing a lightblue floor, a steelblue back wall and a lightskyblue side wall |
| Compounds.RoomHiddenFaces | aircleaning/svg.py:531-535 | a room's box still has six faces, and the hidden three stay black |
| Compounds.Person | aircleaning/svg.py:519-524 | a person is a solid `width` wide and deep about (x, y), from the floor to `height`; it shows an antiquewhite front at the near bound, a beige side at the left bound and a bisque roof at `height`, each spanning the box |
| Compounds.DefaultPerson | aircleaning/svg.py:519-521 | with the default arguments a person is 0.4 wide and deep and 1.7 tall, and its front, side and roof faces are stated exactly |
| Compounds.PersonShape | aircleaning/svg.py:519-524 | a person's roof is width square, centred over (x, y) at its height; front and side sit at the near and left bounds |
| Scene.NewCanvas | aircleaning/svg.py:145-150 | a new canvas has the default view and no graphics |
| Scene.AddOne | aircleaning/svg.py:152-156 | adding one item keeps the existing graphics and appends the item's contribution: a flat, or a compound's graphics |
| Scene.Add | aircleaning/svg.py:152-159 | `add(o1, ..., ok)` appends the contributions left to right and keeps what was there |
| Scene.AddThreeToEmpty | aircleaning/svg.py:152-156 | a three-face compound added to an empty canvas gives exactly those three faces |
| Scene.Draw | aircleaning/svg.py:334-340 | drawing a flat gives its fill and its four corners as the view sees them; the view afterwards keeps its projection and transform except that the rotation is cached |
| Scene.Render | aircleaning/svg.py:178-181 | rendering gives one polygon per graphic, in order, each with the graphic's fill and corners as the view sees them; the view keeps its projection, pan, tilt, focus and rotation, and a valid cache stays valid |
| Scene.Door | aircleaning/svg.py:553-554 | the door is a white yz flat on the right wall, 0.6 wide about the wall's centre and from 0 to 2 high |
| Scene.Window | aircleaning/svg.py:556-562 | window i is a white xz flat on the back wall, 0.5 wide centred i spacings from the left bound and 0.8 high centred 1.2 above the bottom bound |
| Scene.WindowShape | aircleaning/svg.py:556-563 | window i is 0.5 by 0.8 on the back wall, centred i spacings along it and 1.2 up |
| Scene.AddWindows | aircleaning/svg.py:557-563 | the window loop appends one window per number from 1 to `windows` and none when `windows` is below 1 |
| Scene.SizedCanvas | aircleaning/svg.py:547-550 | the viewport is multiplied by `size` and truncated, and the scale becomes `size` |
| Scene.AddRoomAndDoor | aircleaning/svg.py:551-555 | the room's three faces, then a white door centred on the side wall |
| Scene.WindowsShape | aircleaning/svg.py:556-563 | every window after the room and door lies on the back wall at a whole multiple of the spacing |
| Scene.AimCamera | aircleaning/svg.py:564-567 | starting from the default transform, the camera ends focused on the room's centre with pan -30, tilt 60 and no cached rotation; the scale is multiplied by 50 and the viewport kept |
| Scene.DrawScene | aircleaning/svg.py:543-568 | `draw_scene` fails exactly when `windows` is -1; otherwise it has 3 + 1 + max(windows, 0) graphics (room, door, windows), pan -30, tilt 60, focus at the room's centre and scale `size * 50` |

## Left out

- Floating-point rounding: Python floats are modelled as exact reals. Identities such as `Flats.ScaleOne`, `Flats.SetULSame`, `Flats.SetULSetUC`, `Flats.ScaleScale`, `Camera.PanPan`, `Camera.TiltTilt`, `Camera.ScaleScale`, `Camera.ProjectScaled` and `Camera.UnprojectProject` hold for exact arithmetic. The program's IEEE doubles can differ from them in the last bits; for example `uc` of 0.1 and 0.7, less half the extent, is not exactly 0.1.
- Rotation arithmetic: scipy's `Rotation.from_euler` and `apply` (floating point and trigonometry) are outside the model. A rotation is kept as its pair of Euler angles, and applying it is a parameter.
- Number formatting: `Flat.draw` and `Canvas._yield_lines_` format floats into a `points` attribute string. The model stops at the polygon's fill and its four 2-D points.
- `Canvas.yield_attributes` and the `<svg>` wrapper lines: `Canvas._yield_lines_` takes no indent and yields `(0, text)` pairs, which does not fit `Normal.yield_lines`. The canvas's markup text is therefore not modelled.
- `Void`: its `_repr_html_` has no body in the source.
- `Page._repr_html_`: `Page` defines no `yield_lines` of its own. The inherited `_repr_html_` calls `self.yield_lines()` with no argument, and `Element.yield_lines` takes `indent` positionally, so the call fails with a `TypeError` (aircleaning/html.py:17, 21). Only `Page._yield_lines_` is modelled.
- Html.Normal: the `_yield_lines_` hook is modelled as ignoring its indent, as every hook in the code does. An element's body is a fixed list of lines, so `Html.YieldLinesShift` would not hold for a hook that reads its indent.
- Load.Lower: lower-cases ASCII letters only. Python's `str.lower` also maps other Unicode letters, some to more than one character.
- `pull_data` and the other fetchers of load.py (network, pandas, caching), analyse.py, produce.py, `__main__.py` and update.py: I/O and plotting glue.
- `Room.door` (set to `...`) and the `Box` bound setters: a bound assigned after construction does not reach the faces. The model keeps the construction-time faces and has no bound setters.
- Compounds.MakeFlat: takes a `Side` value, not a side name, so the `ValueError` for an unknown side name is not modelled. The constructor never passes an unknown name.
- Scene.Add: takes one or more items, as the source's signature does. What may be passed is a flat or a compound; any other object the source would append as it is is not modelled.

=== FILE: camera.dfy ===
/** The camera: a `Transform` that rotates the scene about a focus point,
    a `Projection` that places the rotated scene on the drawing surface,
    and a `View` that applies one after the other. */
module Camera {
  import opened Wrappers
  import opened Vectors

  // ---------------------------------------------------------------- Transform

  /** The rotation `Rotation.from_euler('zx', (z, x), degrees=True)`, kept
      symbolically by the two angles it is built from. */
  datatype Rotation = FromEuler(z: real, x: real)

  /** The rotation a transform with these angles stands for: about the
      vertical axis by `-pan`, then about the horizontal axis by `-tilt`. */
  function RotationFor(pan: real, tilt: real): Rotation
  {
    FromEuler(-pan, -tilt)
  }

  /** Applying a rotation to a point. The trigonometry is outside the model,
      so callers pass it in as `rotate`. */
  type Rotate = (Rotation, Vec3) -> Vec3

  /** A `Transform`: pan and tilt angles in degrees, the focus point, and the
      lazily computed rotation (`None` when it has been discarded). */
  datatype Transform = Transform(panval: real, tiltval: real, focus: Vec3, cache: Option<Rotation>)

  /** A present cache holds the rotation of the current angles. */
  predicate CacheValid(t: Transform)
  {
    t.cache.Some? ==> t.cache.value == RotationFor(t.panval, t.tiltval)
  }

  /** `Transform(pan, tilt, focus)`: no rotation is computed yet. */
  function NewTransform(pan: real, tilt: real, focus: Vec3): (t: Transform)
    ensures t.panval == pan && t.tiltval == tilt && t.focus == focus
    ensures t.cache == None && CacheValid(t)
  {
    Transform(pan, tilt, focus, None)
  }

  /** `Transform()`: no pan, no tilt, focus at the origin. */
  function DefaultTransform(): (t: Transform)
    ensures t.panval == 0.0 && t.tiltval == 0.0 && t.focus == Origin
    ensures t.cache == None && CacheValid(t)
  {
    NewTransform(0.0, 0.0, Origin)
  }

  /** Assigning `panval`: discards the cached rotation. */
  function SetPan(t: Transform, val: real): (r: Transform)
    ensures r.panval == val && r.cache == None && CacheValid(r)
    ensures r.tiltval == t.tiltval && r.focus == t.focus
  {
    t.(panval := val, cache := None)
  }

  /** Assigning `tiltval`: discards the cached rotation. */
  function SetTilt(t: Transform, val: real): (r: Transform)
    ensures r.tiltval == val && r.cache == None && CacheValid(r)
    ensures r.panval == t.panval && r.focus == t.focus
  {
    t.(tiltval := val, cache := None)
  }

  /** `pan(delta)`: `panval += delta`, through the setter. */
  function Pan(t: Transform, delta: real): (r: Transform)
    ensures r.panval == t.panval + delta && r.cache == None
    ensures r.tiltval == t.tiltval && r.focus == t.focus
  {
    SetPan(t, t.panval + delta)
  }

  /** `tilt(delta)`: `tiltval += delta`, through the setter. */
  function Tilt(t: Transform, delta: real): (r: Transform)
    ensures r.tiltval == t.tiltval + delta && r.cache == None
    ensures r.panval == t.panval && r.focus == t.focus
  {
    SetTilt(t, t.tiltval + delta)
  }

  /** Assigning `focus`: the angles and the cached rotation are kept, and a
      valid cache stays valid because the rotation does not depend on the
      focus. */
  function SetFocus(t: Transform, val: Vec3): (r: Transform)
    ensures r.focus == val
    ensures r.panval == t.panval && r.tiltval == t.tiltval && r.cache == t.cache
    ensures CacheValid(t) ==> CacheValid(r)
  {
    t.(focus := val)
  }

  /** Two pans in a row are one pan by the sum. */
  lemma PanPan(t: Transform, a: real, b: real)
    ensures Pan(Pan(t, a), b) == Pan(t, a + b)
  {
  }

  /** Two tilts in a row are one tilt by the sum. */
  lemma TiltTilt(t: Transform, a: real, b: real)
    ensures Tilt(Tilt(t, a), b) == Tilt(t, a + b)
  {
  }

  /** Panning and tilting commute. */
  lemma PanTiltCommute(t: Transform, a: real, b: real)
    ensures Tilt(Pan(t, a), b) == Pan(Tilt(t, b), a)
  {
  }

  /** Reading the `transform` property: the cached rotation if there is one,
      otherwise the rotation of the current angles, which is then cached. */
  function ReadRotation(t: Transform): (r: (Rotation, Transform))
    ensures CacheValid(t) ==> r.0 == RotationFor(t.panval, t.tiltval)
    ensures r.1.cache == Some(r.0)
    ensures r.1.panval == t.panval && r.1.tiltval == t.tiltval && r.1.focus == t.focus
    ensures CacheValid(t) ==> CacheValid(r.1)
  {
    match t.cache
    case Some(rot) => (rot, t)
    case None =>
      var rot := RotationFor(t.panval, t.tiltval);
      (rot, t.(cache := Some(rot)))
  }

  /** A second read hits the cache and gives the same rotation, without
      changing the transform again. */
  lemma ReadRotationTwice(t: Transform)
    ensures ReadRotation(ReadRotation(t).1) == ReadRotation(t)
  {
  }

  /** Every point moved by `-focus` and then rotated by `rot`. */
  function RotateAll(rotate: Rotate, rot: Rotation, focus: Vec3, pts: seq<Vec3>): (r: seq<Vec3>)
    ensures |r| == |pts|
    ensures forall i :: 0 <= i < |pts| ==> r[i] == rotate(rot, Sub(pts[i], focus))
  {
    seq(|pts|, i requires 0 <= i < |pts| => rotate(rot, Sub(pts[i], focus)))
  }

  /** `Transform.__call__`: subtract the focus, then apply the rotation read
      from the (possibly refilled) cache. */
  function TransformPoints(t: Transform, rotate: Rotate, pts: seq<Vec3>): (r: (seq<Vec3>, Transform))
    ensures |r.0| == |pts|
    ensures CacheValid(t) ==>
      r.0 == RotateAll(rotate, RotationFor(t.panval, t.tiltval), t.focus, pts)
    ensures r.1 == ReadRotation(t).1
  {
    var (rot, t') := ReadRotation(t);
    (RotateAll(rotate, rot, t.focus, pts), t')
  }

  /** While the cache is valid, whether a rotation is cached does not change
      what the transform computes. */
  lemma CacheTransparent(t: Transform, rotate: Rotate, pts: seq<Vec3>)
    requires CacheValid(t)
    ensures TransformPoints(t, rotate, pts).0 == TransformPoints(t.(cache := None), rotate, pts).0
  {
  }

  // --------------------------------------------------------------- Projection

  /** Python's `int(x)` on a float: truncation toward zero. */
  function Trunc(x: real): (r: int)
    ensures 0.0 <= x ==> r as real <= x < r as real + 1.0
    ensures x < 0.0 ==> r as real - 1.0 < x <= r as real
  {
    if x >= 0.0 then x.Floor else -((-x).Floor)
  }

  /** A `Projection`: the viewport size in whole pixels and the scale. */
  datatype Projection = Projection(width: int, height: int, scaleval: real)

  /** `Projection(width, height, scale)`: the sizes are stored truncated. */
  function NewProjection(width: real, height: real, scale: real): (p: Projection)
    ensures p.width == Trunc(width) && p.height == Trunc(height) && p.scaleval == scale
  {
    Projection(Trunc(width), Trunc(height), scale)
  }

  /** `Projection()`: 424 by 300 pixels at scale 1. */
  function DefaultProjection(): (p: Projection)
    ensures p.width == 424 && p.height == 300 && p.scaleval == 1.0
  {
    NewProjection(424.0, 300.0, 1.0)
  }

  /** Assigning `width`: stored truncated. */
  function SetWidth(p: Projection, val: real): (r: Projection)
    ensures r.width == Trunc(val) && r.height == p.height && r.scaleval == p.scaleval
  {
    p.(width := Trunc(val))
  }

  /** Assigning `height`: stored truncated. */
  function SetHeight(p: Projection, val: real): (r: Projection)
    ensures r.height == Trunc(val) && r.width == p.width && r.scaleval == p.scaleval
  {
    p.(height := Trunc(val))
  }

  /** `scale(k)`: the scale factor is multiplied, not replaced. */
  function Scale(p: Projection, k: real): (r: Projection)
    ensures r.scaleval == p.scaleval * k
    ensures r.width == p.width && r.height == p.height
  {
    p.(scaleval := p.scaleval * k)
  }

  lemma ScaleScale(p: Projection, a: real, b: real)
    ensures Scale(Scale(p, a), b) == Scale(p, a * b)
  {
  }

  /** One row of `Projection.__call__`: scale, shift right by half the
      width, flip about half the height, drop the depth. */
  function ProjectPoint(p: Projection, v: Vec3): Vec2
  {
    var s := Mul(p.scaleval, v);
    Vec2(s.x + p.width as real / 2.0, p.height as real / 2.0 - s.y)
  }

  /** `Projection.__call__`: one 2-D point per input point, in order. */
  function Project(p: Projection, pts: seq<Vec3>): (r: seq<Vec2>)
    ensures |r| == |pts|
    ensures forall i :: 0 <= i < |pts| ==> r[i] == ProjectPoint(p, pts[i])
  {
    seq(|pts|, i requires 0 <= i < |pts| => ProjectPoint(p, pts[i]))
  }

  /** The scene point at depth `depth` that lands on `q`, for a projection
      with a non-zero scale. */
  function Unproject(p: Projection, q: Vec2, depth: real): Vec3
    requires p.scaleval != 0.0
  {
    Vec3((q.x - p.width as real / 2.0) / p.scaleval, (p.height as real / 2.0 - q.y) / p.scaleval, depth)
  }

  /** With a non-zero scale a projected point determines its first two
      coordinates: only the depth is lost. */
  lemma UnprojectProject(p: Projection, v: Vec3)
    requires p.scaleval != 0.0
    ensures Unproject(p, ProjectPoint(p, v), v.z) == v
  {
  }

  /** Every surface point is the image of a scene point at any depth. */
  lemma ProjectUnproject(p: Projection, q: Vec2, depth: real)
    requires p.scaleval != 0.0
    ensures ProjectPoint(p, Unproject(p, q, depth)) == q
  {
  }

  /** Scaling the projection is scaling the scene about the origin first. */
  lemma ProjectScaled(p: Projection, k: real, v: Vec3)
    ensures ProjectPoint(Scale(p, k), v) == ProjectPoint(p, Mul(k, v))
  {
  }

  /** The default projection puts the origin at the centre of the 424 by
      300 viewport, pixel (212, 150). */
  lemma DefaultOrigin()
    ensures Project(DefaultProjection(), [Origin]) == [Vec2(212.0, 150.0)]
  {
  }

  // --------------------------------------------------------------------- View

  /** A `View`: a projection and a transform. */
  datatype View = View(projection: Projection, transform: Transform)

  /** `View()` as a `Canvas` makes it by default. */
  function DefaultView(): (v: View)
    ensures v.projection == Projection(424, 300, 1.0)
    ensures v.transform == Transform(0.0, 0.0, Origin, None)
  {
    View(DefaultProjection(), DefaultTransform())
  }

  /** What a view shows of some scene points, read off the angles and the
      focus alone. */
  function Sees(v: View, rotate: Rotate, pts: seq<Vec3>): seq<Vec2>
  {
    var t := v.transform;
    Project(v.projection, RotateAll(rotate, RotationFor(t.panval, t.tiltval), t.focus, pts))
  }

  /** `View.__call__`: the transform, then the projection. Reading the
      rotation may fill the transform's cache. */
  function ViewPoints(v: View, rotate: Rotate, pts: seq<Vec3>): (r: (seq<Vec2>, View))
    ensures |r.0| == |pts|
    ensures CacheValid(v.transform) ==> r.0 == Sees(v, rotate, pts)
    ensures r.1.projection == v.projection
    ensures CacheValid(v.transform) ==> CacheValid(r.1.transform)
    ensures r.1.transform.cache.Some?
    ensures r.1.transform.panval == v.transform.panval && r.1.transform.tiltval == v.transform.tiltval
    ensures r.1.transform.focus == v.transform.focus
    ensures r.1.transform == ReadRotation(v.transform).1
  {
    var (moved, t') := TransformPoints(v.transform, rotate, pts);
    (Project(v.projection, moved), View(v.projection, t'))
  }

  /** With the zero default transform and projection, the origin appears at
      the centre of the viewport. */
  lemma DefaultViewOrigin(rotate: Rotate)
    requires rotate(RotationFor(0.0, 0.0), Origin) == Origin
    ensures ViewPoints(DefaultView(), rotate, [Origin]).0 == [Vec2(212.0, 150.0)]
  {
    DefaultOrigin();
    assert Sub(Origin, Origin) == Origin;
  }
}

=== FILE: compounds.dfy ===
/** Compounds: a `Box` derives six `Flat` faces from six bounds; `Hollow`
    and `Solid` show three of them; `Room` and `Person` are a `Hollow` and
    a `Solid` with their faces coloured. */
module Compounds {
  import opened Vectors
  import opened Flats

  /** The six faces of a box, named as in the source. */
  datatype Side = Left | Right | Near | Far | Bottom | Top

  /** The six bounds: x from left to right, y from near to far, z from
      bottom to top. */
  datatype Bounds = Bounds(lv: real, rv: real, nv: real, fv: real, bv: real, tv: real)

  /** The bound a side lies at: the one named by the side's first letter. */
  function Offset(b: Bounds, side: Side): real
  {
    match side
    case Left => b.lv
    case Right => b.rv
    case Near => b.nv
    case Far => b.fv
    case Bottom => b.bv
    case Top => b.tv
  }

  /** `Box._make_flat(side)`: bottom and top lie in xy over (l, r, n, f),
      near and far in xz over (l, r, b, t), left and right in yz over
      (n, f, b, t); the face is black. */
  function MakeFlat(b: Bounds, side: Side): (f: Flat)
    ensures f.fill == DefaultFill && f.fixed == Offset(b, side)
    ensures side in {Bottom, Top} ==>
      f.orientation == XY && f.u0 == b.lv && f.u1 == b.rv && f.v0 == b.nv && f.v1 == b.fv
    ensures side in {Near, Far} ==>
      f.orientation == XZ && f.u0 == b.lv && f.u1 == b.rv && f.v0 == b.bv && f.v1 == b.tv
    ensures side in {Left, Right} ==>
      f.orientation == YZ && f.u0 == b.nv && f.u1 == b.fv && f.v0 == b.bv && f.v1 == b.tv
  {
    var (o, u0, u1, v0, v1) :=
      if side == Bottom || side == Top then (XY, b.lv, b.rv, b.nv, b.fv)
      else if side == Near || side == Far then (XZ, b.lv, b.rv, b.bv, b.tv)
      else (YZ, b.nv, b.fv, b.bv, b.tv);
    Flat(o, u0, u1, v0, v1, Offset(b, side), DefaultFill)
  }

  /** A box: its bounds and the faces made from them at construction. */
  datatype Box = Box(bounds: Bounds, left: Flat, right: Flat, near: Flat, far: Flat, bottom: Flat, top: Flat)

  /** `Box(left, right, near, far, bottom, top)`. */
  function NewBox(l: real, r: real, n: real, f: real, b: real, t: real): (box: Box)
    ensures box.bounds == Bounds(l, r, n, f, b, t)
    ensures box.bottom == Flat(XY, l, r, n, f, b, DefaultFill) && box.top == Flat(XY, l, r, n, f, t, DefaultFill)
    ensures box.near == Flat(XZ, l, r, b, t, n, DefaultFill) && box.far == Flat(XZ, l, r, b, t, f, DefaultFill)
    ensures box.left == Flat(YZ, n, f, b, t, l, DefaultFill) && box.right == Flat(YZ, n, f, b, t, r, DefaultFill)
  {
    var bs := Bounds(l, r, n, f, b, t);
    Box(bs, MakeFlat(bs, Left), MakeFlat(bs, Right), MakeFlat(bs, Near),
        MakeFlat(bs, Far), MakeFlat(bs, Bottom), MakeFlat(bs, Top))
  }

  /** `Box.graphics`: all six faces. */
  function BoxFaces(box: Box): seq<Flat>
  {
    [box.left, box.right, box.near, box.far, box.bottom, box.top]
  }

  function Breadth(box: Box): real { box.bounds.rv - box.bounds.lv }

  function Depth(box: Box): real { box.bounds.fv - box.bounds.nv }

  function Height(box: Box): real { box.bounds.tv - box.bounds.bv }

  /** `centre`: the low bound plus half the size, on each axis. */
  function Centre(box: Box): (c: Vec3)
    ensures c == Vec3((box.bounds.lv + box.bounds.rv) / 2.0, (box.bounds.nv + box.bounds.fv) / 2.0,
                      (box.bounds.bv + box.bounds.tv) / 2.0)
  {
    Vec3(box.bounds.lv + Breadth(box) / 2.0, box.bounds.nv + Depth(box) / 2.0, box.bounds.bv + Height(box) / 2.0)
  }

  /** The faces of a new box span its sizes and are centred on its centre. */
  lemma NewBoxFacesFit(l: real, r: real, n: real, f: real, b: real, t: real)
    ensures var box := NewBox(l, r, n, f, b, t);
      && UL(box.bottom) == Breadth(box) && VL(box.bottom) == Depth(box)
      && UL(box.near) == Breadth(box) && VL(box.near) == Height(box)
      && UL(box.left) == Depth(box) && VL(box.left) == Height(box)
      && Centre(box) == Vec3(UC(box.bottom), VC(box.bottom), VC(box.near))
      && UC(box.left) == Centre(box).y
  {
  }

  /** Which faces a compound shows. */
  datatype Kind = Whole | Hollow | Solid

  /** A `Compound` built on a box. */
  datatype Compound = Compound(kind: Kind, box: Box)

  /** `graphics`: a `Box` shows all six faces, a `Hollow` its floor, back
      and side (bottom, far, right), a `Solid` its front, side and roof
      (near, left, top). */
  function Graphics(c: Compound): (r: seq<Flat>)
    ensures c.kind == Whole ==> r == BoxFaces(c.box)
    ensures c.kind == Hollow ==> r == [c.box.bottom, c.box.far, c.box.right]
    ensures c.kind == Solid ==> r == [c.box.near, c.box.left, c.box.top]
    ensures |r| == if c.kind == Whole then 6 else 3
  {
    var faces := BoxFaces(c.box);
    match c.kind
    case Whole => faces
    case Hollow => [faces[4], faces[3], faces[1]]
    case Solid => [faces[2], faces[0], faces[5]]
  }

  /** Every face a compound shows is one of its box's six faces. */
  lemma GraphicsAreFaces(c: Compound)
    ensures forall i :: 0 <= i < |Graphics(c)| ==> Graphics(c)[i] in BoxFaces(c.box)
  {
  }

  const Steelblue: string := "steelblue"
  const Lightskyblue: string := "lightskyblue"
  const Lightblue: string := "lightblue"
  const Antiquewhite: string := "antiquewhite"
  const Beige: string := "beige"
  const Bisque: string := "bisque"

  /** `Room(breadth, depth, height)`: a `Hollow` from the origin with a
      steelblue back, a lightskyblue side and a lightblue floor. */
  function Room(breadth: real, depth: real, height: real): (c: Compound)
    ensures c.kind == Hollow && c.box.bounds == Bounds(0.0, breadth, 0.0, depth, 0.0, height)
    ensures Graphics(c) == [
      Flat(XY, 0.0, breadth, 0.0, depth, 0.0, Lightblue),
      Flat(XZ, 0.0, breadth, 0.0, height, depth, Steelblue),
      Flat(YZ, 0.0, depth, 0.0, height, breadth, Lightskyblue)]
  {
    var box := NewBox(0.0, breadth, 0.0, depth, 0.0, height);
    var box := box.(far := box.far.(fill := Steelblue));
    var box := box.(right := box.right.(fill := Lightskyblue));
    var box := box.(bottom := box.bottom.(fill := Lightblue));
    Compound(Hollow, box)
  }

  /** A room's underlying box still has six faces; the three it hides keep
      the default colour. */
  lemma RoomHiddenFaces(breadth: real, depth: real, height: real)
    ensures var box := Room(breadth, depth, height).box;
      |BoxFaces(box)| == 6 && box.left.fill == DefaultFill && box.near.fill == DefaultFill && box.top.fill == DefaultFill
  {
  }

  const DefaultPersonWidth: real := 0.4
  const DefaultPersonHeight: real := 1.7

  /** `Person(x, y, width, height)`: a `Solid` standing on the floor,
      `width` wide and deep, centred on (x, y), with an antiquewhite front,
      a beige side and a bisque roof. */
  function Person(x: real, y: real, width: real, height: real): (c: Compound)
    ensures c.kind == Solid
    ensures c.box.bounds == Bounds(x - width / 2.0, x + width / 2.0, y - width / 2.0, y + width / 2.0, 0.0, height)
    ensures Graphics(c) == [
      Flat(XZ, x - width / 2.0, x + width / 2.0, 0.0, height, y - width / 2.0, Antiquewhite),
      Flat(YZ, y - width / 2.0, y + width / 2.0, 0.0, height, x - width / 2.0, Beige),
      Flat(XY, x - width / 2.0, x + width / 2.0, y - width / 2.0, y + width / 2.0, height, Bisque)]
  {
    var hwidth := width / 2.0;
    var box := NewBox(x - hwidth, x + hwidth, y - hwidth, y + hwidth, 0.0, height);
    var box := box.(near := box.near.(fill := Antiquewhite));
    var box := box.(left := box.left.(fill := Beige));
    var box := box.(top := box.top.(fill := Bisque));
    Compound(Solid, box)
  }

  /** `Person(x, y)` with the default size: 0.4 wide and deep, 1.7 tall. */
  function DefaultPerson(x: real, y: real): (c: Compound)
    ensures c.kind == Solid
    ensures c.box.bounds == Bounds(x - 0.2, x + 0.2, y - 0.2, y + 0.2, 0.0, 1.7)
    ensures Graphics(c) == [
      Flat(XZ, x - 0.2, x + 0.2, 0.0, 1.7, y - 0.2, Antiquewhite),
      Flat(YZ, y - 0.2, y + 0.2, 0.0, 1.7, x - 0.2, Beige),
      Flat(XY, x - 0.2, x + 0.2, y - 0.2, y + 0.2, 1.7, Bisque)]
  {
    Person(x, y, DefaultPersonWidth, DefaultPersonHeight)
  }

  /** A person's roof is `width` square, centred over (x, y) at the
      person's height; its front faces the viewer at the near bound. */
  lemma PersonShape(x: real, y: real, width: real, height: real)
    ensures var g := Graphics(Person(x, y, width, height));
      && g[2].orientation == XY && UC(g[2]) == x && VC(g[2]) == y
      && UL(g[2]) == width && VL(g[2]) == width && g[2].fixed == height
      && g[0].orientation == XZ && g[0].fixed == y - width / 2.0 && VL(g[0]) == height
      && g[1].orientation == YZ && g[1].fixed == x - width / 2.0 && UC(g[1]) == y
  {
  }
}

=== FILE: flats.dfy ===
/** `Flat`: an axis-aligned rectangle in 3-D lying in the plane its
    orientation names, spanned by bounds on its two free axes (u and v) at
    an offset on the third. */
module Flats {
  import opened Wrappers
  import opened Vectors

  datatype Orientation = XY | XZ | YZ

  /** The tag that names the orientation in the source. */
  function Tag(o: Orientation): string
  {
    match o
    case XY => "xy"
    case XZ => "xz"
    case YZ => "yz"
  }

  /** The orientation setter's check: only the three tags are accepted,
      anything else raises `ValueError(tag)`. */
  function ParseOrientation(tag: string): (r: Result<Orientation, Error>)
    ensures r.Ok? <==> tag in {"xy", "xz", "yz"}
    ensures r.Ok? ==> Tag(r.value) == tag
    ensures r.Err? ==> r.error == ValueError(tag)
  {
    if tag == "xy" then Ok(XY)
    else if tag == "xz" then Ok(XZ)
    else if tag == "yz" then Ok(YZ)
    else Err(ValueError(tag))
  }

  lemma ParseTag(o: Orientation)
    ensures ParseOrientation(Tag(o)) == Ok(o)
  {
  }

  /** The axes an orientation assigns to u, v and the fixed offset:
      `_omap`. */
  datatype Axes = Axes(u: nat, v: nat, fixed: nat)

  function OMap(o: Orientation): (a: Axes)
    ensures a.u < 3 && a.v < 3 && a.fixed < 3
    ensures a.u != a.v && a.v != a.fixed && a.u != a.fixed
  {
    match o
    case XY => Axes(0, 1, 2)
    case XZ => Axes(0, 2, 1)
    case YZ => Axes(1, 2, 0)
  }

  /** The axis that the fixed offset occupies. */
  function FixedAxis(o: Orientation): (axis: nat)
    ensures axis == OMap(o).fixed
  {
    match o
    case XY => 2
    case XZ => 1
    case YZ => 0
  }

  datatype Flat = Flat(orientation: Orientation, u0: real, u1: real, v0: real, v1: real, fixed: real, fill: string)

  const DefaultFill: string := "black"

  /** `Flat(orientation, u0, u1, v0, v1, fixed, fill)`: fails on an unknown
      orientation tag and otherwise keeps every argument. */
  function NewFlat(tag: string, u0: real, u1: real, v0: real, v1: real, fixed: real, fill: string): (r: Result<Flat, Error>)
    ensures r.Err? <==> tag !in {"xy", "xz", "yz"}
    ensures r.Err? ==> r.error == ValueError(tag)
    ensures r.Ok? ==> Tag(r.value.orientation) == tag && r.value.fill == fill
    ensures r.Ok? ==> r.value.u0 == u0 && r.value.u1 == u1 && r.value.v0 == v0 && r.value.v1 == v1 && r.value.fixed == fixed
  {
    match ParseOrientation(tag)
    case Err(e) => Err(e)
    case Ok(o) => Ok(Flat(o, u0, u1, v0, v1, fixed, fill))
  }

  /** Assigning `orientation`: fails on an unknown tag, and otherwise
      changes nothing else. */
  function SetOrientation(f: Flat, tag: string): (r: Result<Flat, Error>)
    ensures r.Err? <==> tag !in {"xy", "xz", "yz"}
    ensures r.Err? ==> r.error == ValueError(tag)
    ensures r.Ok? ==> Tag(r.value.orientation) == tag && r.value == f.(orientation := r.value.orientation)
  {
    match ParseOrientation(tag)
    case Err(e) => Err(e)
    case Ok(o) => Ok(f.(orientation := o))
  }

  /** `ul`: extent along u. */
  function UL(f: Flat): real { f.u1 - f.u0 }

  /** `vl`: extent along v. */
  function VL(f: Flat): real { f.v1 - f.v0 }

  /** `uc`: centre along u. */
  function UC(f: Flat): (c: real)
    ensures f.u0 == c - UL(f) / 2.0 && f.u1 == c + UL(f) / 2.0
  {
    (f.u0 + f.u1) / 2.0
  }

  /** `vc`: centre along v. */
  function VC(f: Flat): (c: real)
    ensures f.v0 == c - VL(f) / 2.0 && f.v1 == c + VL(f) / 2.0
  {
    (f.v0 + f.v1) / 2.0
  }

  /** Assigning `ul`: the new extent about the old centre. */
  function SetUL(f: Flat, val: real): (r: Flat)
    ensures UL(r) == val && UC(r) == UC(f)
    ensures r.v0 == f.v0 && r.v1 == f.v1
    ensures r.fixed == f.fixed && r.orientation == f.orientation && r.fill == f.fill
  {
    var mid := (f.u0 + f.u1) / 2.0;
    var half := val / 2.0;
    f.(u0 := mid - half, u1 := mid + half)
  }

  /** Assigning `vl`: the new extent about the old centre. */
  function SetVL(f: Flat, val: real): (r: Flat)
    ensures VL(r) == val && VC(r) == VC(f)
    ensures r.u0 == f.u0 && r.u1 == f.u1
    ensures r.fixed == f.fixed && r.orientation == f.orientation && r.fill == f.fill
  {
    var mid := (f.v0 + f.v1) / 2.0;
    var half := val / 2.0;
    f.(v0 := mid - half, v1 := mid + half)
  }

  /** Assigning `uc`: the old extent about the new centre. */
  function SetUC(f: Flat, val: real): (r: Flat)
    ensures UC(r) == val && UL(r) == UL(f)
    ensures r.v0 == f.v0 && r.v1 == f.v1
    ensures r.fixed == f.fixed && r.orientation == f.orientation && r.fill == f.fill
  {
    var half := UL(f) / 2.0;
    f.(u0 := val - half, u1 := val + half)
  }

  /** Assigning `vc`: the old extent about the new centre. */
  function SetVC(f: Flat, val: real): (r: Flat)
    ensures VC(r) == val && VL(r) == VL(f)
    ensures r.u0 == f.u0 && r.u1 == f.u1
    ensures r.fixed == f.fixed && r.orientation == f.orientation && r.fill == f.fill
  {
    var half := VL(f) / 2.0;
    f.(v0 := val - half, v1 := val + half)
  }

  /** `uscale(k)`: `ul *= k`. */
  function UScale(f: Flat, k: real): (r: Flat)
    ensures UL(r) == k * UL(f) && UC(r) == UC(f)
    ensures r.v0 == f.v0 && r.v1 == f.v1
    ensures r.fixed == f.fixed && r.orientation == f.orientation && r.fill == f.fill
  {
    SetUL(f, UL(f) * k)
  }

  /** `vscale(k)`: `vl *= k`. */
  function VScale(f: Flat, k: real): (r: Flat)
    ensures VL(r) == k * VL(f) && VC(r) == VC(f)
    ensures r.u0 == f.u0 && r.u1 == f.u1
    ensures r.fixed == f.fixed && r.orientation == f.orientation && r.fill == f.fill
  {
    SetVL(f, VL(f) * k)
  }

  /** `scale(k)`: both extents multiplied by `k`, both centres kept. */
  function Scale(f: Flat, k: real): (r: Flat)
    ensures UL(r) == k * UL(f) && VL(r) == k * VL(f)
    ensures UC(r) == UC(f) && VC(r) == VC(f)
    ensures r.fixed == f.fixed && r.orientation == f.orientation && r.fill == f.fill
  {
    VScale(UScale(f, k), k)
  }

  /** A flat is determined by its centres, extents, offset, orientation
      and fill. */
  lemma {:induction false} SameShape(f: Flat, g: Flat)
    requires UC(f) == UC(g) && UL(f) == UL(g) && VC(f) == VC(g) && VL(f) == VL(g)
    requires f.fixed == g.fixed && f.orientation == g.orientation && f.fill == g.fill
    ensures f == g
  {
    assert f.u0 == UC(f) - UL(f) / 2.0 && g.u0 == UC(g) - UL(g) / 2.0;
    assert f.v0 == VC(f) - VL(f) / 2.0 && g.v0 == VC(g) - VL(g) / 2.0;
  }

  /** Setting the extent to the current one changes nothing. */
  lemma SetULSame(f: Flat)
    ensures SetUL(f, UL(f)) == f
  {
    SameShape(SetUL(f, UL(f)), f);
  }

  /** Setting the centre and setting the extent commute. */
  lemma SetULSetUC(f: Flat, l: real, c: real)
    ensures SetUC(SetUL(f, l), c) == SetUL(SetUC(f, c), l)
  {
    SameShape(SetUC(SetUL(f, l), c), SetUL(SetUC(f, c), l));
  }

  /** Scaling twice is scaling once by the product. */
  lemma ScaleScale(f: Flat, a: real, b: real)
    ensures Scale(Scale(f, a), b) == Scale(f, a * b)
  {
    SameShape(Scale(Scale(f, a), b), Scale(f, a * b));
  }

  /** Scaling by 1 changes nothing. */
  lemma ScaleOne(f: Flat)
    ensures Scale(f, 1.0) == f
  {
    SameShape(Scale(f, 1.0), f);
  }

  /** The point whose `a.u` coordinate is `u`, `a.v` coordinate is `v` and
      `a.fixed` coordinate is `w`. */
  function Place(a: Axes, u: real, v: real, w: real): Vec3
  {
    Vec3(Pick(a, 0, u, v, w), Pick(a, 1, u, v, w), Pick(a, 2, u, v, w))
  }

  function Pick(a: Axes, axis: nat, u: real, v: real, w: real): real
  {
    if axis == a.fixed then w else if axis == a.v then v else u
  }

  /** `__array__`: the four corners (u0,v0), (u0,v1), (u1,v1), (u1,v0), each
      placed in the axes its orientation names, with the offset on the
      remaining axis. */
  function Corners(f: Flat): (r: seq<Vec3>)
    ensures |r| == 4
    ensures f.orientation == XY ==> (r ==
      [Vec3(f.u0, f.v0, f.fixed), Vec3(f.u0, f.v1, f.fixed), Vec3(f.u1, f.v1, f.fixed), Vec3(f.u1, f.v0, f.fixed)])
    ensures f.orientation == XZ ==> (r ==
      [Vec3(f.u0, f.fixed, f.v0), Vec3(f.u0, f.fixed, f.v1), Vec3(f.u1, f.fixed, f.v1), Vec3(f.u1, f.fixed, f.v0)])
    ensures f.orientation == YZ ==> (r ==
      [Vec3(f.fixed, f.u0, f.v0), Vec3(f.fixed, f.u0, f.v1), Vec3(f.fixed, f.u1, f.v1), Vec3(f.fixed, f.u1, f.v0)])
  {
    var a := OMap(f.orientation);
    [Place(a, f.u0, f.v0, f.fixed), Place(a, f.u0, f.v1, f.fixed),
     Place(a, f.u1, f.v1, f.fixed), Place(a, f.u1, f.v0, f.fixed)]
  }

  /** All points agree on `axis`. */
  predicate ConstantOn(pts: seq<Vec3>, axis: nat)
    requires axis < 3
  {
    forall i :: 0 <= i < |pts| ==> Coord(pts[i], axis) == Coord(pts[0], axis)
  }

  /** The corners all lie at the offset on the fixed axis; when neither
      extent is zero that is the only axis on which they all agree. */
  lemma CornersFixedAxis(f: Flat)
    ensures FixedAxis(f.orientation) < 3
    ensures forall i :: 0 <= i < 4 ==> Coord(Corners(f)[i], FixedAxis(f.orientation)) == f.fixed
    ensures f.u0 != f.u1 && f.v0 != f.v1 ==>
      forall axis :: 0 <= axis < 3 ==> (ConstantOn(Corners(f), axis) <==> axis == FixedAxis(f.orientation))
  {
    var r := Corners(f);
    if f.u0 != f.u1 && f.v0 != f.v1 {
      forall axis | 0 <= axis < 3
        ensures ConstantOn(r, axis) <==> axis == FixedAxis(f.orientation)
      {
        if axis != FixedAxis(f.orientation) {
          assert Coord(r[0], axis) != Coord(r[1], axis) || Coord(r[0], axis) != Coord(r[3], axis);
        }
      }
    }
  }

  /** Resizing or moving a flat only moves its corners within its plane. */
  lemma ScaleKeepsPlane(f: Flat, k: real)
    ensures forall i :: 0 <= i < 4 ==>
      Coord(Corners(Scale(f, k))[i], FixedAxis(f.orientation)) == Coord(Corners(f)[i], FixedAxis(f.orientation))
  {
    CornersFixedAxis(f);
    CornersFixedAxis(Scale(f, k));
  }
}

=== FILE: html.dfy ===
/** Indented markup emission: a `Normal` element wraps the lines of its
    body between an open and a close tag, and a `Page` emits a fixed
    document skeleton around its contents. */
module Html {
  import opened Wrappers
  import Strings

  /** `indent * '  '`: two spaces per level, nothing for a level <= 0. */
  function Indent(indent: int): (r: string)
    ensures |r| == if indent <= 0 then 0 else 2 * indent
    ensures forall i :: 0 <= i < |r| ==> r[i] == ' '
    decreases indent
  {
    if indent <= 0 then "" else "  " + Indent(indent - 1)
  }

  predicate StartsWith(line: string, prefix: string)
  {
    |prefix| <= |line| && line[..|prefix|] == prefix
  }

  /** An element with a start and an end tag. `body` is what its
      `_yield_lines_` hook produces; the hook of the base `Element` produces
      nothing (see `Bare`). */
  datatype Normal = Normal(typeName: string, body: seq<string>)

  /** An element that keeps the default `_yield_lines_`, which yields nothing. */
  function Bare(typeName: string): Normal
  {
    Normal(typeName, [])
  }

  /** `open_tag`: the type name in angle brackets. */
  function OpenTag(e: Normal): (r: string)
    ensures |r| == |e.typeName| + 2 && r[0] == '<' && r[|r| - 1] == '>'
    ensures r[1..|r| - 1] == e.typeName
  {
    "<" + e.typeName + ">"
  }

  /** `close_tag`: the type name after `</` and before `>`. */
  function CloseTag(e: Normal): (r: string)
    ensures |r| == |e.typeName| + 3 && r[..2] == "</" && r[|r| - 1] == '>'
    ensures r[2..|r| - 1] == e.typeName
  {
    "</" + e.typeName + ">"
  }

  /** Every line with `prefix` put in front of it. */
  function Prefixed(prefix: string, lines: seq<string>): (r: seq<string>)
    ensures |r| == |lines|
    ensures forall i :: 0 <= i < |r| ==> r[i] == prefix + lines[i]
  {
    seq(|lines|, i requires 0 <= i < |lines| => prefix + lines[i])
  }

  /** `Normal.yield_lines(indent)`. */
  function YieldLines(e: Normal, indent: int): (r: seq<string>)
    ensures |r| == |e.body| + 2
    ensures r[0] == Indent(indent) + OpenTag(e)
    ensures r[|r| - 1] == Indent(indent) + CloseTag(e)
    ensures forall i :: 0 <= i < |e.body| ==> r[i + 1] == Indent(indent) + e.body[i]
  {
    var ind := Indent(indent);
    [ind + OpenTag(e)] + Prefixed(ind, e.body) + [ind + CloseTag(e)]
  }

  /** Every emitted line starts with the indentation. */
  lemma YieldLinesIndented(e: Normal, indent: int)
    ensures forall i :: 0 <= i < |YieldLines(e, indent)| ==> StartsWith(YieldLines(e, indent)[i], Indent(indent))
  {
    var r := YieldLines(e, indent);
    var ind := Indent(indent);
    forall i | 0 <= i < |r| ensures StartsWith(r[i], ind) {
      if i == 0 {
        DropPrefixHead(ind, OpenTag(e));
      } else if i == |r| - 1 {
        DropPrefixHead(ind, CloseTag(e));
      } else {
        DropPrefixHead(ind, e.body[i - 1]);
      }
    }
  }

  lemma DropPrefixHead(prefix: string, s: string)
    ensures StartsWith(prefix + s, prefix)
  {
    assert (prefix + s)[..|prefix|] == prefix;
  }

  /** An element that keeps the default hook emits just its two tags. */
  lemma BareLines(typeName: string, indent: int)
    ensures YieldLines(Bare(typeName), indent) ==
      [Indent(indent) + "<" + typeName + ">", Indent(indent) + "</" + typeName + ">"]
  {
    var ind := Indent(indent);
    Assoc(ind, "<" + typeName, ">");
    Assoc(ind, "<", typeName);
    Assoc(ind, "</" + typeName, ">");
    Assoc(ind, "</", typeName);
  }

  lemma Assoc(a: string, b: string, c: string)
    ensures a + (b + c) == (a + b) + c
  {
  }

  lemma DropPrefix(prefix: string, s: string)
    ensures (prefix + s)[|prefix|..] == s
  {
  }

  lemma TagName(name: string)
    ensures var tag := "<" + name + ">"; |tag| >= 2 && tag[0] == '<' && tag[|tag| - 1] == '>' && tag[1..|tag| - 1] == name
  {
  }

  /** One more level of indentation is two more spaces on every line. */
  lemma YieldLinesShift(e: Normal, indent: nat)
    ensures YieldLines(e, indent + 1) == Prefixed("  ", YieldLines(e, indent))
  {
    var ind := Indent(indent);
    assert Indent(indent + 1) == "  " + ind;
    var a, b := YieldLines(e, indent + 1), Prefixed("  ", YieldLines(e, indent));
    forall i | 0 <= i < |a| ensures a[i] == b[i] {
      if i == 0 {
        Assoc("  ", ind, OpenTag(e));
      } else if i == |a| - 1 {
        Assoc("  ", ind, CloseTag(e));
      } else {
        Assoc("  ", ind, e.body[i - 1]);
      }
    }
  }

  /** Reads back an element from the lines `yield_lines(indent)` emits:
      every line must carry the indentation, the first must be `<name>` and
      the last `</name>`; the lines between are the body. */
  function ParseNormal(lines: seq<string>, indent: int): Option<Normal>
  {
    var ind := Indent(indent);
    if |lines| < 2 || exists i :: 0 <= i < |lines| && !StartsWith(lines[i], ind) then None
    else
      var first := lines[0][|ind|..];
      var last := lines[|lines| - 1][|ind|..];
      if |first| < 2 || first[0] != '<' || first[|first| - 1] != '>' then None
      else
        var name := first[1..|first| - 1];
        if last != "</" + name + ">" then None
        else Some(Normal(name, Unprefixed(|ind|, lines[1..|lines| - 1])))
  }

  /** Every line with its first `n` characters dropped (all of a shorter
      line). */
  function Unprefixed(n: nat, lines: seq<string>): seq<string>
  {
    seq(|lines|, i requires 0 <= i < |lines| => if n <= |lines[i]| then lines[i][n..] else [])
  }

  lemma UnprefixedPrefixed(prefix: string, lines: seq<string>)
    ensures Unprefixed(|prefix|, Prefixed(prefix, lines)) == lines
  {
    var r := Unprefixed(|prefix|, Prefixed(prefix, lines));
    forall i | 0 <= i < |lines| ensures r[i] == lines[i] {
      DropPrefix(prefix, lines[i]);
    }
  }

  /** The emitted lines determine the element. */
  lemma ParseYieldLines(e: Normal, indent: int)
    ensures ParseNormal(YieldLines(e, indent), indent) == Some(e)
  {
    var lines := YieldLines(e, indent);
    var ind := Indent(indent);
    YieldLinesIndented(e, indent);
    assert !exists i :: 0 <= i < |lines| && !StartsWith(lines[i], ind);
    ParseFirstLast(e, indent);
    ParseBody(e, indent);
  }

  lemma ParseFirstLast(e: Normal, indent: int)
    ensures var lines := YieldLines(e, indent); var ind := Indent(indent);
      var first := lines[0][|ind|..];
      && |first| >= 2 && first[0] == '<' && first[|first| - 1] == '>'
      && first[1..|first| - 1] == e.typeName
      && lines[|lines| - 1][|ind|..] == "</" + e.typeName + ">"
  {
    var ind := Indent(indent);
    DropPrefix(ind, OpenTag(e));
    DropPrefix(ind, CloseTag(e));
    TagName(e.typeName);
  }

  lemma ParseBody(e: Normal, indent: int)
    ensures var lines := YieldLines(e, indent);
      Unprefixed(|Indent(indent)|, lines[1..|lines| - 1]) == e.body
  {
    var lines := YieldLines(e, indent);
    var ind := Indent(indent);
    assert lines[1..|lines| - 1] == Prefixed(ind, e.body);
    UnprefixedPrefixed(ind, e.body);
  }

  /** What a successful parse knows about the lines. */
  lemma ParseFacts(lines: seq<string>, indent: int, e: Normal)
    requires ParseNormal(lines, indent) == Some(e)
    ensures |lines| >= 2
    ensures forall i :: 0 <= i < |lines| ==> StartsWith(lines[i], Indent(indent))
    ensures lines[0][|Indent(indent)|..] == "<" + e.typeName + ">"
    ensures lines[|lines| - 1][|Indent(indent)|..] == "</" + e.typeName + ">"
    ensures e.body == Unprefixed(|Indent(indent)|, lines[1..|lines| - 1])
  {
    var ind := Indent(indent);
    Retag(lines[0][|ind|..]);
  }

  /** Lines that parse as an element are exactly the lines it emits. */
  lemma YieldLinesParse(lines: seq<string>, indent: int, e: Normal)
    requires ParseNormal(lines, indent) == Some(e)
    ensures YieldLines(e, indent) == lines
  {
    ParseFacts(lines, indent, e);
    Rebuild(lines, Indent(indent), e);
  }

  lemma Rebuild(lines: seq<string>, ind: string, e: Normal)
    requires |lines| >= 2
    requires forall i :: 0 <= i < |lines| ==> StartsWith(lines[i], ind)
    requires StartsWith(lines[0], ind) && lines[0][|ind|..] == OpenTag(e)
    requires StartsWith(lines[|lines| - 1], ind) && lines[|lines| - 1][|ind|..] == CloseTag(e)
    requires e.body == Unprefixed(|ind|, lines[1..|lines| - 1])
    ensures [ind + OpenTag(e)] + Prefixed(ind, e.body) + [ind + CloseTag(e)] == lines
  {
    var n := |lines|;
    var r := [ind + OpenTag(e)] + Prefixed(ind, e.body) + [ind + CloseTag(e)];
    forall i | 0 <= i < n ensures r[i] == lines[i] {
      Reprefix(ind, lines[i]);
      if 0 < i < n - 1 {
        assert e.body[i - 1] == lines[i][|ind|..];
      }
    }
  }

  lemma Reprefix(prefix: string, line: string)
    requires StartsWith(line, prefix)
    ensures line == prefix + line[|prefix|..]
  {
  }

  lemma Retag(tag: string)
    requires |tag| >= 2 && tag[0] == '<' && tag[|tag| - 1] == '>'
    ensures tag == "<" + tag[1..|tag| - 1] + ">"
  {
  }

  /** `Page`: a title and a tuple of contents. */
  datatype Page = Page(title: string, contents: seq<Normal>)

  /** The lines `Page._yield_lines_` emits before its contents. */
  function Header(title: string): (r: seq<string>)
    ensures |r| == 7 && r[0] == "<!DOCTYPE html>" && r[6] == "<body>"
    ensures |r[4]| == |title| + 17 && StartsWith(r[4], "  <title>") && r[4][9..|r[4]| - 8] == title
  {
    [ "<!DOCTYPE html>",
      "<html lang=\"en\">",
      "<head>",
      "  <meta charset=\"UTF-8\">",
      "  <title>" + title + "</title>",
      "</head>",
      "<body>" ]
  }

  /** The lines `Page._yield_lines_` emits after its contents. */
  const Footer: seq<string> := ["</body>", "</html>"]

  /** Each content rendered at indent 1, in tuple order. */
  function Blocks(contents: seq<Normal>): (r: seq<string>)
    ensures |r| == BlocksSize(contents)
    decreases |contents|
  {
    if |contents| == 0 then []
    else YieldLines(contents[0], 1) + Blocks(contents[1..])
  }

  /** Every line starts with `prefix`. */
  predicate AllStartWith(lines: seq<string>, prefix: string)
  {
    forall i :: 0 <= i < |lines| ==> StartsWith(lines[i], prefix)
  }

  lemma AllStartWithAppend(a: seq<string>, b: seq<string>, prefix: string)
    requires AllStartWith(a, prefix) && AllStartWith(b, prefix)
    ensures AllStartWith(a + b, prefix)
  {
    forall i | 0 <= i < |a + b| ensures StartsWith((a + b)[i], prefix) {
      if i >= |a| {
        assert (a + b)[i] == b[i - |a|];
      }
    }
  }

  /** Every line of the contents is indented by at least one level. */
  lemma {:induction false} BlocksIndented(contents: seq<Normal>)
    ensures AllStartWith(Blocks(contents), "  ")
    decreases |contents|
  {
    if |contents| > 0 {
      BlocksIndented(contents[1..]);
      assert Indent(1) == "  ";
      YieldLinesIndented(contents[0], 1);
      AllStartWithAppend(YieldLines(contents[0], 1), Blocks(contents[1..]), "  ");
    }
  }

  /** Lines taken by the contents: two tags plus the body of each. */
  function BlocksSize(contents: seq<Normal>): nat
    decreases |contents|
  {
    if |contents| == 0 then 0
    else |contents[0].body| + 2 + BlocksSize(contents[1..])
  }

  lemma {:induction false} BlocksAppend(a: seq<Normal>, b: seq<Normal>)
    ensures Blocks(a + b) == Blocks(a) + Blocks(b)
    decreases |a|
  {
    if |a| > 0 {
      assert (a + b)[1..] == a[1..] + b;
      BlocksAppend(a[1..], b);
    } else {
      assert a + b == b;
    }
  }

  /** Content `j` is emitted, at indent 1, after the blocks of the contents
      before it and before the blocks of those after it. */
  lemma {:induction false} BlocksAt(contents: seq<Normal>, j: nat)
    requires j < |contents|
    ensures Blocks(contents) ==
      Blocks(contents[..j]) + YieldLines(contents[j], 1) + Blocks(contents[j + 1..])
  {
    var before, here, after := contents[..j], [contents[j]], contents[j + 1..];
    Decompose(contents, j);
    calc {
      Blocks(contents);
      Blocks((before + here) + after);
      { BlocksAppend(before + here, after); }
      Blocks(before + here) + Blocks(after);
      { BlocksAppend(before, here); }
      (Blocks(before) + Blocks(here)) + Blocks(after);
      { BlocksSingle(contents[j]); }
      (Blocks(before) + YieldLines(contents[j], 1)) + Blocks(after);
    }
  }

  lemma Decompose<T>(s: seq<T>, j: nat)
    requires j < |s|
    ensures s == (s[..j] + [s[j]]) + s[j + 1..]
  {
  }

  lemma BlocksSingle(e: Normal)
    ensures Blocks([e]) == YieldLines(e, 1)
  {
    assert [e][1..] == [];
  }

  /** `Page._yield_lines_`; the indent it is given is ignored. */
  function PageLines(p: Page, indent: int): (r: seq<string>)
    ensures |r| == 9 + BlocksSize(p.contents)
    ensures r[..7] == Header(p.title)
    ensures r[|r| - 2..] == Footer
    ensures r[7..|r| - 2] == Blocks(p.contents)
    ensures AllStartWith(r[7..|r| - 2], "  ")
  {
    BlocksIndented(p.contents);
    var r := Header(p.title) + Blocks(p.contents) + Footer;
    assert r[7..|r| - 2] == Blocks(p.contents);
    r
  }

  /** The page emits the lines of each content, at indent 1 and in order,
      between the `<body>` and `</body>` lines. */
  lemma PageContents(p: Page, indent: int, j: nat)
    requires j < |p.contents|
    ensures PageLines(p, indent) ==
      Header(p.title) + Blocks(p.contents[..j]) + YieldLines(p.contents[j], 1)
        + Blocks(p.contents[j + 1..]) + Footer
  {
    var cs := p.contents;
    BlocksAt(cs, j);
    var mid := Blocks(cs[..j]) + YieldLines(cs[j], 1) + Blocks(cs[j + 1..]);
    assert PageLines(p, indent) == Header(p.title) + mid + Footer;
    SeqAssoc(Header(p.title), Blocks(cs[..j]) + YieldLines(cs[j], 1), Blocks(cs[j + 1..]));
    SeqAssoc(Header(p.title), Blocks(cs[..j]), YieldLines(cs[j], 1));
  }

  lemma SeqAssoc(a: seq<string>, b: seq<string>, c: seq<string>)
    ensures a + (b + c) == a + b + c
  {
  }

  /** A page of `n` elements with default hooks has `9 + 2n` lines. */
  lemma {:induction false} BareBlocksSize(contents: seq<Normal>)
    requires forall i :: 0 <= i < |contents| ==> contents[i].body == []
    ensures BlocksSize(contents) == 2 * |contents|
    decreases |contents|
  {
    if |contents| > 0 {
      BareBlocksSize(contents[1..]);
    }
  }

  /** `_repr_html_`: the lines joined by newlines, plus a final newline. */
  function ReprHtml(lines: seq<string>): (r: string)
    ensures |r| >= 1 && r[|r| - 1] == '\n'
    ensures |lines| >= 1 ==> StartsWith(r, lines[0])
  {
    Strings.Join(lines, '\n') + "\n"
  }

  /** `_repr_html_` of a `Normal` element, whose `yield_lines` defaults to
      indent 0. */
  function NormalReprHtml(e: Normal): (r: string)
    ensures StartsWith(r, OpenTag(e))
    ensures r[|r| - 1] == '\n'
  {
    ReprHtml(YieldLines(e, 0))
  }

  /** When neither the type name nor a body line holds a newline, the text
      of `_repr_html_` is the open tag, the body and the close tag, one per
      line, each ended by a newline. */
  lemma NormalReprHtmlLines(e: Normal)
    requires '\n' !in e.typeName
    requires forall i :: 0 <= i < |e.body| ==> '\n' !in e.body[i]
    ensures Strings.Split(NormalReprHtml(e), '\n') == [OpenTag(e)] + e.body + [CloseTag(e), ""]
    ensures Strings.Count(NormalReprHtml(e), '\n') == |e.body| + 2
  {
    var lines := [OpenTag(e)] + e.body + [CloseTag(e)];
    YieldLinesZero(e);
    assert '\n' !in OpenTag(e) && '\n' !in CloseTag(e);
    forall i | 0 <= i < |lines| ensures '\n' !in lines[i] {
      if 0 < i < |lines| - 1 {
        assert lines[i] == e.body[i - 1];
      }
    }
    ReprHtmlLines(lines);
    assert lines + [""] == [OpenTag(e)] + e.body + [CloseTag(e), ""];
  }

  /** At indent 0 the lines are the tags around the body, unchanged. */
  lemma YieldLinesZero(e: Normal)
    ensures YieldLines(e, 0) == [OpenTag(e)] + e.body + [CloseTag(e)]
  {
    assert Indent(0) == "";
    assert "" + OpenTag(e) == OpenTag(e) && "" + CloseTag(e) == CloseTag(e);
    assert Prefixed("", e.body) == e.body by {
      forall i | 0 <= i < |e.body| ensures Prefixed("", e.body)[i] == e.body[i] {
        assert "" + e.body[i] == e.body[i];
      }
    }
  }

  /** Splitting the text of `_repr_html_` at newlines gives back the lines,
      followed by the empty text after the final newline; so the text holds
      exactly one newline per line. */
  lemma ReprHtmlLines(lines: seq<string>)
    requires |lines| >= 1
    requires forall i :: 0 <= i < |lines| ==> '\n' !in lines[i]
    ensures Strings.Split(ReprHtml(lines), '\n') == lines + [""]
    ensures Strings.Count(ReprHtml(lines), '\n') == |lines|
  {
    Strings.JoinSnoc(lines, '\n', "");
    assert ReprHtml(lines) == Strings.Join(lines + [""], '\n');
    Strings.SplitJoin(lines + [""], '\n');
  }
}

=== FILE: load.dfy ===
/** `process_colname`: splits a spreadsheet column header such as
    `"Unit Cost (AUD)"` into a lower-cased, space-free name and an optional
    unit with its parentheses stripped. */
module Load {
  import opened Wrappers
  import Strings

  predicate IsUpper(c: char) { 'A' <= c <= 'Z' }

  predicate IsParen(c: char) { c == '(' || c == ')' }

  /** `str.lower` on one character, restricted to ASCII letters. */
  function Lower(c: char): (r: char)
    ensures !IsUpper(r)
    ensures r == ' ' <==> c == ' '
    ensures !IsUpper(c) ==> r == c
    ensures IsUpper(c) ==> r as int == c as int + 32 && 'a' <= r <= 'z'
  {
    if IsUpper(c) then (c as int + 32) as char else c
  }

  /** `str.lower` on a string, character by character. */
  function LowerStr(s: string): (r: string)
    ensures |r| == |s|
    ensures forall i :: 0 <= i < |s| ==> r[i] == Lower(s[i])
  {
    seq(|s|, i requires 0 <= i < |s| => Lower(s[i]))
  }

  lemma LowerStrAppend(a: string, b: string)
    ensures LowerStr(a + b) == LowerStr(a) + LowerStr(b)
  {
  }

  /** `''.join(map(str.lower, tokens))`. */
  function LowerJoin(tokens: seq<string>): (r: string)
    ensures (forall i :: 0 <= i < |tokens| ==> ' ' !in tokens[i]) ==> ' ' !in r
    decreases |tokens|
  {
    if |tokens| == 0 then ""
    else LowerStr(tokens[0]) + LowerJoin(tokens[1..])
  }

  /** Lower-casing the tokens of a split header and gluing them together
      is lower-casing the header with its spaces removed. */
  lemma {:induction false} LowerJoinSplit(s: string)
    ensures LowerJoin(Strings.Split(s, ' ')) == LowerStr(Strings.Remove(s, ' '))
    decreases |s|
  {
    if |s| > 0 {
      LowerJoinSplit(s[1..]);
      var rest := Strings.Split(s[1..], ' ');
      if s[0] == ' ' {
        assert ([""] + rest)[1..] == rest;
      } else {
        var parts := [[s[0]] + rest[0]] + rest[1..];
        assert parts[1..] == rest[1..];
        LowerStrAppend([s[0]], rest[0]);
        LowerStrAppend([s[0]], Strings.Remove(s[1..], ' '));
      }
    }
  }

  /** Leading `(`/`)` characters removed, as the first half of
      `str.strip('()')`. */
  function StripLeading(s: string): (r: string)
    ensures |r| <= |s| && r == s[|s| - |r|..]
    ensures forall k :: 0 <= k < |s| - |r| ==> IsParen(s[k])
    ensures r == [] || !IsParen(r[0])
    decreases |s|
  {
    if |s| > 0 && IsParen(s[0]) then StripLeading(s[1..]) else s
  }

  /** Trailing `(`/`)` characters removed, as the second half of
      `str.strip('()')`. */
  function StripTrailing(s: string): (r: string)
    ensures |r| <= |s| && r == s[..|r|]
    ensures forall k :: |r| <= k < |s| ==> IsParen(s[k])
    ensures r == [] || !IsParen(r[|r| - 1])
    decreases |s|
  {
    if |s| > 0 && IsParen(s[|s| - 1]) then StripTrailing(s[..|s| - 1]) else s
  }

  /** `str.strip('()')`: every leading and trailing parenthesis removed. */
  function StripParens(s: string): (r: string)
    ensures |r| <= |s|
    ensures r == [] || (!IsParen(r[0]) && !IsParen(r[|r| - 1]))
  {
    var left := StripLeading(s);
    var r := StripTrailing(left);
    assert r != [] ==> r[0] == left[0];
    r
  }

  predicate AllParens(s: string) { forall k :: 0 <= k < |s| ==> IsParen(s[k]) }

  /** Text with no parenthesis at either end is not touched. */
  predicate Unwrapped(u: string) { u == [] || (!IsParen(u[0]) && !IsParen(u[|u| - 1])) }

  lemma {:induction false} StripLeadingOver(p: string, u: string)
    requires AllParens(p)
    requires u == [] || !IsParen(u[0])
    ensures StripLeading(p + u) == u
    decreases |p|
  {
    if |p| > 0 {
      assert (p + u)[1..] == p[1..] + u;
      StripLeadingOver(p[1..], u);
    }
  }

  lemma {:induction false} StripTrailingOver(u: string, q: string)
    requires AllParens(q)
    requires u == [] || !IsParen(u[|u| - 1])
    ensures StripTrailing(u + q) == u
    decreases |q|
  {
    if |q| > 0 {
      var s := u + q;
      assert s[..|s| - 1] == u + q[..|q| - 1];
      StripTrailingOver(u, q[..|q| - 1]);
    } else {
      assert u + q == u;
    }
  }

  /** `strip('()')` removes exactly the parentheses wrapped around a core
      that does not itself start or end with one. */
  lemma StripParensWrapped(p: string, u: string, q: string)
    requires AllParens(p) && AllParens(q) && Unwrapped(u)
    ensures StripParens(p + u + q) == u
  {
    if u == [] {
      assert AllParens(p + q);
      assert p + u + q == (p + q) + [];
      StripLeadingOver(p + q, []);
      StripTrailingOver([], []);
    } else {
      assert p + u + q == p + (u + q);
      StripLeadingOver(p, u + q);
      StripTrailingOver(u, q);
    }
  }

  /** A parsed column header. */
  datatype Column = Column(name: string, unit: Option<string>)

  predicate StartsWithParen(t: string) { |t| > 0 && t[0] == '(' }

  /** `process_colname`. */
  function ProcessColname(colname: string): (r: Column)
    ensures ' ' !in r.name
    ensures ' ' !in colname ==> r == Column(LowerStr(colname), None)
    ensures r.unit.Some? ==> Unwrapped(r.unit.value) && ' ' !in r.unit.value
    ensures r.unit.None? ==> r.name == LowerStr(Strings.Remove(colname, ' '))
  {
    Strings.CountZero(colname, ' ');
    var names := Strings.Split(colname, ' ');
    if |names| < 2 then
      Strings.SplitNoSep(colname, ' ');
      Strings.RemoveAbsent(colname, ' ');
      Column(LowerStr(names[0]), None)
    else if StartsWithParen(names[|names| - 1]) then
      Column(LowerJoin(names[..|names| - 1]), Some(StripParens(names[|names| - 1])))
    else
      LowerJoinSplit(colname);
      Column(LowerJoin(names), None)
  }

  /** The header has a unit split off at space `k`: the text after that
      last space is a parenthesised token. */
  predicate UnitAt(colname: string, k: int)
  {
    0 <= k < |colname| - 1 && colname[k] == ' ' && colname[k + 1] == '(' && ' ' !in colname[k + 1..]
  }

  /** A unit is returned exactly when the last space-separated token starts
      with `(`; the name is then the lower-cased text before that space
      without its spaces, and the unit the token stripped of parentheses. */
  lemma ProcessColnameUnit(colname: string)
    ensures ProcessColname(colname).unit.Some? <==> exists k :: UnitAt(colname, k)
    ensures forall k :: UnitAt(colname, k) ==>
      ProcessColname(colname) ==
        Column(LowerStr(Strings.Remove(colname[..k], ' ')), Some(StripParens(colname[k + 1..])))
  {
    var names := Strings.Split(colname, ' ');
    var n := |names|;
    if ProcessColname(colname).unit.Some? {
      var init := names[..n - 1];
      Strings.JoinSplit(colname, ' ');
      assert names == init + [names[n - 1]];
      Strings.JoinSnoc(init, ' ', names[n - 1]);
      var k := |Strings.Join(init, ' ')|;
      assert colname[k + 1..] == names[n - 1];
      assert UnitAt(colname, k);
    }
    forall k | UnitAt(colname, k)
      ensures ProcessColname(colname) ==
        Column(LowerStr(Strings.Remove(colname[..k], ' ')), Some(StripParens(colname[k + 1..])))
    {
      var a, b := colname[..k], colname[k + 1..];
      assert colname == a + [' '] + b;
      Strings.SplitSnoc(a, ' ', b);
      assert names[..n - 1] == Strings.Split(a, ' ');
      LowerJoinSplit(a);
    }
  }

  /** A header whose last token starts with `(` yields the lower-cased
      earlier tokens as the name and the stripped last token as the unit. */
  lemma ProcessColnameOfTokens(colname: string, words: seq<string>, last: string)
    requires Strings.Split(colname, ' ') == words + [last]
    requires |words| >= 1 && StartsWithParen(last)
    ensures ProcessColname(colname) == Column(LowerJoin(words), Some(StripParens(last)))
  {
    var names := Strings.Split(colname, ' ');
    assert names[..|names| - 1] == words;
  }

  /** Rendering a header from space-free words and a unit and parsing it
      again gives back the lower-cased words and the unit. */
  lemma {:induction false} ProcessColnameRoundTrip(words: seq<string>, unit: string)
    requires |words| >= 1
    requires forall i :: 0 <= i < |words| ==> ' ' !in words[i]
    requires ' ' !in unit && Unwrapped(unit)
    ensures ProcessColname(Strings.Join(words, ' ') + " (" + unit + ")") == Column(LowerJoin(words), Some(unit))
  {
    var a := Strings.Join(words, ' ');
    var b := "(" + unit + ")";
    Regroup(a, unit);
    WrappedUnit(unit);
    LastTokenRoundTrip(words, b);
  }

  lemma Regroup(a: string, unit: string)
    ensures a + " (" + unit + ")" == a + [' '] + ("(" + unit + ")")
  {
  }

  lemma WrappedUnit(unit: string)
    requires ' ' !in unit && Unwrapped(unit)
    ensures ' ' !in "(" + unit + ")" && StripParens("(" + unit + ")") == unit
  {
    assert AllParens("(") && AllParens(")");
    StripParensWrapped("(", unit, ")");
  }

  lemma {:induction false} LastTokenRoundTrip(words: seq<string>, b: string)
    requires |words| >= 1
    requires forall i :: 0 <= i < |words| ==> ' ' !in words[i]
    requires ' ' !in b && StartsWithParen(b)
    ensures ProcessColname(Strings.Join(words, ' ') + [' '] + b) == Column(LowerJoin(words), Some(StripParens(b)))
  {
    var a := Strings.Join(words, ' ');
    Strings.SplitSnoc(a, ' ', b);
    Strings.SplitJoin(words, ' ');
    ProcessColnameOfTokens(a + [' '] + b, words, b);
  }
}

=== FILE: scene.dfy ===
/** The canvas: an append-only list of flats drawn through a view, and
    `draw_scene`, which assembles a room with a door and windows. */
module Scene {
  import opened Wrappers
  import opened Vectors
  import opened Camera
  import opened Flats
  import opened Compounds

  /** What `Canvas.add` accepts: a compound, or anything else, which is
      appended as it is (here: a flat). */
  datatype Item = FlatItem(flat: Flat) | CompoundItem(compound: Compound)

  /** A canvas: its view and the graphics added so far. */
  datatype Canvas = Canvas(view: View, graphics: seq<Flat>)

  /** `Canvas()`: the default view and no graphics. */
  function NewCanvas(): (c: Canvas)
    ensures c.view == DefaultView() && c.graphics == []
  {
    Canvas(DefaultView(), [])
  }

  /** The graphics one item contributes. */
  function Contribution(item: Item): seq<Flat>
  {
    match item
    case FlatItem(f) => [f]
    case CompoundItem(c) => Graphics(c)
  }

  /** The graphics a sequence of items contributes, left to right. */
  function Flatten(items: seq<Item>): seq<Flat>
    decreases |items|
  {
    if |items| == 0 then [] else Contribution(items[0]) + Flatten(items[1..])
  }

  lemma {:induction false} FlattenSnoc(items: seq<Item>, item: Item)
    ensures Flatten(items + [item]) == Flatten(items) + Contribution(item)
    decreases |items|
  {
    if |items| == 0 {
      assert ([item])[1..] == [];
    } else {
      assert (items + [item])[1..] == items[1..] + [item];
      FlattenSnoc(items[1..], item);
    }
  }

  /** Each item contributes one graphic per flat, six per box and three per
      hollow or solid. */
  function ItemCount(item: Item): nat
  {
    match item
    case FlatItem(_) => 1
    case CompoundItem(c) => if c.kind == Whole then 6 else 3
  }

  /** `Canvas.add(obj)` with one argument: a compound's graphics are
      extended onto the list, anything else is appended. */
  function AddOne(c: Canvas, item: Item): (r: Canvas)
    ensures r.view == c.view
    ensures |r.graphics| == |c.graphics| + ItemCount(item)
    ensures r.graphics[..|c.graphics|] == c.graphics
    ensures r.graphics[|c.graphics|..] == Contribution(item)
  {
    Canvas(c.view, c.graphics + Contribution(item))
  }

  /** `Canvas.add(obj, *objs)`: the first argument, then each further one,
      left to right; what was there before is kept as it is. */
  method Add(c: Canvas, obj: Item, objs: seq<Item>) returns (r: Canvas)
    ensures r.view == c.view
    ensures r.graphics == c.graphics + Flatten([obj] + objs)
  {
    var items := [obj] + objs;
    r := c;
    var i := 0;
    while i < |items|
      invariant 0 <= i <= |items|
      invariant r.view == c.view
      invariant r.graphics == c.graphics + Flatten(items[..i])
    {
      ghost var before := r.graphics;
      r := AddOne(r, items[i]);
      assert r.graphics == before + Contribution(items[i]);
      FlattenStep(items, i);
      i := i + 1;
    }
    assert items[..i] == items;
  }

  lemma FlattenStep(items: seq<Item>, i: nat)
    requires i < |items|
    ensures Flatten(items[..i + 1]) == Flatten(items[..i]) + Contribution(items[i])
  {
    assert items[..i + 1] == items[..i] + [items[i]];
    FlattenSnoc(items[..i], items[i]);
  }

  /** Adding a compound with three faces to an empty canvas leaves exactly
      those three faces, in order. */
  lemma AddThreeToEmpty(c: Compound)
    requires c.kind != Whole
    ensures AddOne(NewCanvas(), CompoundItem(c)).graphics == Graphics(c)
    ensures |AddOne(NewCanvas(), CompoundItem(c)).graphics| == 3
  {
  }

  /** A drawn `polygon`: its fill and its four points on the surface. */
  datatype Polygon = Polygon(fill: string, points: seq<Vec2>)

  /** `Flat.draw(view)`: the corners seen through the view, with the fill. */
  function Draw(f: Flat, v: View, rotate: Rotate): (r: (Polygon, View))
    ensures r.0.fill == f.fill && |r.0.points| == 4
    ensures CacheValid(v.transform) ==> r.0.points == Sees(v, rotate, Corners(f))
    ensures r.1 == View(v.projection, ReadRotation(v.transform).1)
  {
    var (pts, v') := ViewPoints(v, rotate, Corners(f));
    (Polygon(f.fill, pts), v')
  }

  /** What a transform rotates by: the cached rotation if there is one,
      otherwise the one its angles give. */
  function CurrentRotation(t: Transform): Rotation
  {
    ReadRotation(t).0
  }

  /** `Canvas._yield_lines_`: one polygon per graphic, in the order added.
      The first draw may fill the transform's cache; every draw uses the
      same rotation. */
  method Render(c: Canvas, rotate: Rotate) returns (polys: seq<Polygon>, view: View)
    ensures |polys| == |c.graphics|
    ensures forall i :: 0 <= i < |polys| ==>
      && polys[i].fill == c.graphics[i].fill
      && polys[i].points == Project(c.view.projection,
           RotateAll(rotate, CurrentRotation(c.view.transform), c.view.transform.focus, Corners(c.graphics[i])))
    ensures CacheValid(c.view.transform) ==>
      forall i :: 0 <= i < |polys| ==> polys[i] == Polygon(c.graphics[i].fill, Sees(c.view, rotate, Corners(c.graphics[i])))
    ensures view.projection == c.view.projection
    ensures view.transform.panval == c.view.transform.panval && view.transform.tiltval == c.view.transform.tiltval
    ensures view.transform.focus == c.view.transform.focus
    ensures CurrentRotation(view.transform) == CurrentRotation(c.view.transform)
    ensures CacheValid(c.view.transform) ==> CacheValid(view.transform)
  {
    var rot := CurrentRotation(c.view.transform);
    polys := [];
    view := c.view;
    var i := 0;
    while i < |c.graphics|
      invariant 0 <= i <= |c.graphics|
      invariant |polys| == i
      invariant view.projection == c.view.projection
      invariant view.transform.focus == c.view.transform.focus
      invariant view.transform.panval == c.view.transform.panval
      invariant view.transform.tiltval == c.view.transform.tiltval
      invariant CurrentRotation(view.transform) == rot
      invariant CacheValid(c.view.transform) ==> CacheValid(view.transform)
      invariant forall j :: 0 <= j < i ==>
        && polys[j].fill == c.graphics[j].fill
        && polys[j].points == Project(c.view.projection,
             RotateAll(rotate, rot, c.view.transform.focus, Corners(c.graphics[j])))
    {
      var (poly, view') := Draw(c.graphics[i], view, rotate);
      polys := polys + [poly];
      view := view';
      i := i + 1;
    }
  }

  const White: string := "white"

  /** The door on the side wall of a room `width` deep and `length` long:
      0.6 wide about the wall's centre and 2 high. */
  function Door(length: real, width: real): (f: Flat)
    ensures f.orientation == YZ && f.fixed == length && f.fill == White
    ensures UC(f) == width / 2.0 && UL(f) == 0.6 && f.v0 == 0.0 && VL(f) == 2.0
  {
    Flat(YZ, width / 2.0 - 0.3, width / 2.0 + 0.3, 0.0, 2.0, length, White)
  }

  /** Window `i` of `windows` on the back wall, built from the room's bounds
      as `draw_scene` does. */
  function Window(room: Bounds, spacing: real, i: int): (w: Flat)
    ensures w.orientation == XZ && w.fixed == room.fv && w.fill == White
    ensures UC(w) == room.lv + i as real * spacing && UL(w) == 0.5
    ensures VC(w) == room.bv + 1.2 && VL(w) == 0.8
  {
    Flat(XZ, room.lv + i as real * spacing - 0.25, room.lv + i as real * spacing + 0.25,
         room.bv + 0.8, room.bv + 1.6, room.fv, White)
  }

  /** A window placed by `Window` in a room standing at the origin is
      0.5 wide and 0.8 high, centred `i` spacings along the back wall and
      1.2 above the floor. */
  lemma WindowShape(room: Bounds, spacing: real, i: int)
    requires room.lv == 0.0 && room.bv == 0.0
    ensures var w := Window(room, spacing, i);
      && w.orientation == XZ && w.fixed == room.fv && w.fill == White
      && UC(w) == i as real * spacing && UL(w) == 0.5 && VC(w) == 1.2 && VL(w) == 0.8
  {
  }

  /** The loop of `draw_scene` that adds windows 1 to `windows`. */
  method AddWindows(c: Canvas, room: Bounds, spacing: real, windows: int) returns (r: Canvas)
    ensures r.view == c.view
    ensures |r.graphics| == |c.graphics| + (if windows > 0 then windows else 0)
    ensures r.graphics[..|c.graphics|] == c.graphics
    ensures forall j :: |c.graphics| <= j < |r.graphics| ==>
      r.graphics[j] == Window(room, spacing, j - |c.graphics| + 1)
  {
    r := c;
    var i := 1;
    while i <= windows
      invariant 1 <= i && (windows >= 1 ==> i <= windows + 1)
      invariant windows < 1 ==> i == 1
      invariant r.view == c.view
      invariant |r.graphics| == |c.graphics| + i - 1
      invariant r.graphics[..|c.graphics|] == c.graphics
      invariant forall j :: |c.graphics| <= j < |r.graphics| ==>
        r.graphics[j] == Window(room, spacing, j - |c.graphics| + 1)
    {
      var window := Window(room, spacing, i);
      assert Flatten([FlatItem(window)]) == [window];
      r := Add(r, FlatItem(window), []);
      i := i + 1;
    }
  }

  /** The canvas `draw_scene` starts from: the default one with its
      viewport and scale multiplied by `size`. */
  function SizedCanvas(size: real): (c: Canvas)
    ensures c.graphics == [] && c.view.transform == DefaultTransform()
    ensures c.view.projection == Projection(Trunc(424.0 * size), Trunc(300.0 * size), size)
  {
    var c := NewCanvas();
    var p := c.view.projection;
    var p := SetWidth(p, p.width as real * size);
    var p := SetHeight(p, p.height as real * size);
    var p := Camera.Scale(p, size);
    c.(view := c.view.(projection := p))
  }

  /** The camera set-up that ends `draw_scene`: focus on the room's centre,
      pan by -30, tilt by 60, scale by 50. */
  function AimCamera(v: View, room: Box): (r: View)
    ensures v.transform == DefaultTransform() ==>
      r.transform == Transform(-30.0, 60.0, Centre(room), None)
    ensures r.projection == v.projection.(scaleval := v.projection.scaleval * 50.0)
  {
    var t := SetFocus(v.transform, Centre(room));
    var t := Pan(t, -30.0);
    var t := Tilt(t, 60.0);
    View(Camera.Scale(v.projection, 50.0), t)
  }

  /** `draw_scene(length, width, height, windows, size)`: a room, a door on
      its side wall and `windows` windows evenly spaced along its back wall,
      seen from a pan of -30 and a tilt of 60 degrees about the room's
      centre at 50 times `size`. With `windows == -1` the spacing divides
      by zero. */
  method DrawScene(length: real, width: real, height: real, windows: int, size: real)
    returns (r: Result<Canvas, Error>)
    ensures r.Err? <==> windows == -1
    ensures r.Err? ==> r.error == ZeroDivisionError
    ensures r.Ok? ==> |r.value.graphics| == 4 + (if windows > 0 then windows else 0)
    ensures r.Ok? ==> r.value.graphics[..3] == Graphics(Room(length, width, height))
    ensures r.Ok? ==> r.value.graphics[3] == Door(length, width)
    ensures r.Ok? ==> forall i :: 4 <= i < |r.value.graphics| ==>
      var w := r.value.graphics[i];
      && w.orientation == XZ && w.fixed == width && w.fill == White
      && UC(w) == (i - 3) as real * (length / (windows + 1) as real)
      && UL(w) == 0.5 && VC(w) == 1.2 && VL(w) == 0.8
    ensures r.Ok? ==> (r.value.view.transform ==
      Transform(-30.0, 60.0, Vec3(length / 2.0, width / 2.0, height / 2.0), None))
    ensures r.Ok? ==> (r.value.view.projection ==
      Projection(Trunc(424.0 * size), Trunc(300.0 * size), size * 50.0))
  {
    var canvas := SizedCanvas(size);
    var room := Room(length, width, height);
    canvas := AddRoomAndDoor(canvas, length, width, height);
    if windows + 1 == 0 {
      return Err(ZeroDivisionError);
    }
    var spacing := length / (windows + 1) as real;
    canvas := AddWindows(canvas, room.box.bounds, spacing, windows);
    WindowsShape(canvas, room.box.bounds, spacing);
    canvas := canvas.(view := AimCamera(canvas.view, room.box));
    r := Ok(canvas);
  }

  /** The room's graphics, then the door `draw_scene` centres on the
      room's side wall. */
  method AddRoomAndDoor(c: Canvas, length: real, width: real, height: real) returns (r: Canvas)
    ensures r.view == c.view
    ensures r.graphics == c.graphics + Graphics(Room(length, width, height)) + [Door(length, width)]
  {
    var room := Room(length, width, height);
    r := Add(c, CompoundItem(room), []);
    assert Flatten([CompoundItem(room)]) == Graphics(room);
    var wall1 := room.box.right;
    var door := Flat(YZ, UC(wall1) - 0.3, UC(wall1) + 0.3, 0.0, 2.0, room.box.bounds.rv, White);
    assert door == Door(length, width);
    r := Add(r, FlatItem(door), []);
    assert Flatten([FlatItem(door)]) == [door];
  }

  /** Windows placed after the room and the door lie on the back wall,
      centred at whole multiples of the spacing. */
  lemma WindowsShape(after: Canvas, room: Bounds, spacing: real)
    requires room.lv == 0.0 && room.bv == 0.0
    requires forall j :: 4 <= j < |after.graphics| ==> after.graphics[j] == Window(room, spacing, j - 3)
    ensures forall i :: 4 <= i < |after.graphics| ==>
      var w := after.graphics[i];
      && w.orientation == XZ && w.fixed == room.fv && w.fill == White
      && UC(w) == (i - 3) as real * spacing
      && UL(w) == 0.5 && VC(w) == 1.2 && VL(w) == 0.8
  {
    forall i | 4 <= i < |after.graphics|
      ensures var w := after.graphics[i];
        && w.orientation == XZ && w.fixed == room.fv && w.fill == White
        && UC(w) == (i - 3) as real * spacing
        && UL(w) == 0.5 && VC(w) == 1.2 && VL(w) == 0.8
    {
      WindowShape(room, spacing, i - 3);
    }
  }
}

=== FILE: strings.dfy ===
/** Python's `str.split(sep)` and `sep.join(parts)` for a one-character
    separator, with the round trips that relate them. */
module Strings {

  /** Number of occurrences of `c` in `s`. */
  function Count(s: string, c: char): nat
    decreases |s|
  {
    if |s| == 0 then 0
    else (if s[0] == c then 1 else 0) + Count(s[1..], c)
  }

  /** No occurrence is counted exactly when there is none. */
  lemma {:induction false} CountZero(s: string, c: char)
    ensures Count(s, c) == 0 <==> c !in s
    decreases |s|
  {
    if |s| > 0 {
      CountZero(s[1..], c);
      assert s == [s[0]] + s[1..];
    }
  }

  /** `s` with every occurrence of `c` removed. */
  function Remove(s: string, c: char): string
    decreases |s|
  {
    if |s| == 0 then ""
    else (if s[0] == c then "" else [s[0]]) + Remove(s[1..], c)
  }

  /** Removing a character that does not occur changes nothing. */
  lemma {:induction false} RemoveAbsent(s: string, c: char)
    requires c !in s
    ensures Remove(s, c) == s
    decreases |s|
  {
    if |s| > 0 {
      RemoveAbsent(s[1..], c);
      assert s == [s[0]] + s[1..];
    }
  }

  /** `s.split(sep)`: the maximal runs between separators, in order; empty
      runs are kept, so there is always one more part than separators. */
  function Split(s: string, sep: char): (parts: seq<string>)
    ensures |parts| == Count(s, sep) + 1
    ensures forall i :: 0 <= i < |parts| ==> sep !in parts[i]
    decreases |s|
  {
    if |s| == 0 then [""]
    else
      var rest := Split(s[1..], sep);
      if s[0] == sep then [""] + rest
      else [[s[0]] + rest[0]] + rest[1..]
  }

  /** `sep.join(parts)`. */
  function Join(parts: seq<string>, sep: char): (r: string)
    ensures |parts| == 0 ==> r == ""
    ensures |parts| >= 1 ==> |parts[0]| <= |r| && r[..|parts[0]|] == parts[0]
    ensures |parts| >= 2 ==> |parts[0]| < |r| && r[|parts[0]|] == sep
    decreases |parts|
  {
    if |parts| == 0 then ""
    else if |parts| == 1 then parts[0]
    else parts[0] + [sep] + Join(parts[1..], sep)
  }

  /** Splitting and joining again gives back the original text. */
  lemma {:induction false} JoinSplit(s: string, sep: char)
    ensures Join(Split(s, sep), sep) == s
    decreases |s|
  {
    if |s| > 0 {
      JoinSplit(s[1..], sep);
      var rest := Split(s[1..], sep);
      if s[0] == sep {
        assert ([""] + rest)[1..] == rest;
      } else if |rest| > 1 {
        assert ([[s[0]] + rest[0]] + rest[1..])[1..] == rest[1..];
        assert s == [s[0]] + s[1..];
      } else {
        assert s == [s[0]] + s[1..];
      }
    }
  }

  /** Text without the separator is a single part. */
  lemma {:induction false} SplitNoSep(s: string, sep: char)
    requires sep !in s
    ensures Split(s, sep) == [s]
    decreases |s|
  {
    if |s| > 0 {
      assert sep !in s[1..];
      SplitNoSep(s[1..], sep);
      assert s == [s[0]] + s[1..];
    }
  }

  /** A separator after separator-free text `a` ends the first part. */
  lemma {:induction false} SplitCons(a: string, sep: char, b: string)
    requires sep !in a
    ensures Split(a + [sep] + b, sep) == [a] + Split(b, sep)
    decreases |a|
  {
    var s := a + [sep] + b;
    if |a| == 0 {
      assert s[1..] == b;
    } else {
      assert s[1..] == a[1..] + [sep] + b;
      assert sep !in a[1..];
      SplitCons(a[1..], sep, b);
      assert [s[0]] + a[1..] == a;
    }
  }

  /** Separator-free text `b` after the last separator is the last part. */
  lemma {:induction false} SplitSnoc(a: string, sep: char, b: string)
    requires sep !in b
    ensures Split(a + [sep] + b, sep) == Split(a, sep) + [b]
    decreases |a|
  {
    var s := a + [sep] + b;
    if |a| == 0 {
      assert s[1..] == b;
      SplitNoSep(b, sep);
    } else {
      assert s[1..] == a[1..] + [sep] + b;
      SplitSnoc(a[1..], sep, b);
      var rest := Split(a[1..], sep);
      assert (rest + [b])[0] == rest[0];
      assert (rest + [b])[1..] == rest[1..] + [b];
    }
  }

  /** Joining parts that do not contain the separator and splitting again
      gives back the parts. */
  lemma {:induction false} SplitJoin(parts: seq<string>, sep: char)
    requires |parts| >= 1
    requires forall i :: 0 <= i < |parts| ==> sep !in parts[i]
    ensures Split(Join(parts, sep), sep) == parts
    decreases |parts|
  {
    if |parts| == 1 {
      SplitNoSep(parts[0], sep);
    } else {
      SplitJoin(parts[1..], sep);
      SplitCons(parts[0], sep, Join(parts[1..], sep));
      assert [parts[0]] + parts[1..] == parts;
    }
  }

  /** Joining with one more part appends a separator and that part. */
  lemma {:induction false} JoinSnoc(parts: seq<string>, sep: char, last: string)
    requires |parts| >= 1
    ensures Join(parts + [last], sep) == Join(parts, sep) + [sep] + last
    decreases |parts|
  {
    if |parts| > 1 {
      assert (parts + [last])[1..] == parts[1..] + [last];
      JoinSnoc(parts[1..], sep, last);
    } else {
      assert (parts + [last])[1..] == [last];
    }
  }
}

=== FILE: vectors.dfy ===
/** Points of the scene and of the drawing surface. */
module Vectors {

  /** A point in 3-D scene space: a row of the `(n, 3)` arrays. */
  datatype Vec3 = Vec3(x: real, y: real, z: real)

  /** A point on the 2-D drawing surface. */
  datatype Vec2 = Vec2(x: real, y: real)

  /** Coordinate number `axis` (0 = x, 1 = y, 2 = z), as `arr[:, axis]`. */
  function Coord(p: Vec3, axis: nat): real
    requires axis < 3
  {
    if axis == 0 then p.x else if axis == 1 then p.y else p.z
  }

  /** Elementwise difference, as numpy's `a - b` on one row. */
  function Sub(a: Vec3, b: Vec3): (r: Vec3)
    ensures forall axis :: 0 <= axis < 3 ==> Coord(r, axis) == Coord(a, axis) - Coord(b, axis)
  {
    Vec3(a.x - b.x, a.y - b.y, a.z - b.z)
  }

  /** Every coordinate multiplied by `k`, as numpy's `arr * k`. */
  function Mul(k: real, a: Vec3): Vec3
  {
    Vec3(k * a.x, k * a.y, k * a.z)
  }

  const Origin: Vec3 := Vec3(0.0, 0.0, 0.0)
}

=== FILE: wrappers.dfy ===
/** Failure-carrying values shared by the whole model, and the Python
    exceptions the modelled code can raise. */
module Wrappers {

  /** An optional value: Python's `None` or a present value. */
  datatype Option<+T> = None | Some(value: T)

  /** The outcome of an operation that may raise. */
  datatype Result<+T, +E> = Ok(value: T) | Err(error: E)

  /** The exceptions raised by the modelled code. */
  datatype Error =
    | ValueError(arg: string)   // an unknown orientation tag
    | ZeroDivisionError         // `x / 0` on numbers
}
